=== FILE: README.md ===
# UnrealText actor parser

This project models `udk/udkParser.py`. That module turns the UnrealText of a level, or of one actor, into `ObjectInfo` records. It has four parts:

- **`parseActors`** cuts the level text into actor blocks. Each block starts at a `Begin Actor` marker and reaches up to the next `End Actor`. The splitter parses every block in safe mode and returns the results in the order it found them.
- **`parseActor`** handles one block:
  - it splits the block into left-trimmed lines with `re.split("\n+\s*", …)`;
  - it picks the header line;
  - it reads the internal type and the name from the header with the lazy pattern `Class=(.+?) Name=(.+?)\s+`;
  - it sends every later line to exactly one destination: the position, the rotation, the scale, or the accumulated text block.
- **`_getFloatTuple`** pulls the three captures of `=\(.+?=(.+?),.+?=(.+?),.+?=(.+?)\)` out of an assignment line. A capture that `float` rejects becomes `0.0`.
- **`_convertRotationFromUDK`** scales each rotation component from 1/65536 of a turn to degrees.

The modules are:

- `Wrappers`: `Option` and `Result`.
- `PyStr`: Python's `str.find`, `startswith` and slicing, the last one including the negative stop that `find` returns as -1.
- `LazyMatch`: a scanner for patterns made of literals, lazy `.+?` runs and a `\s`. A match is the leftmost one, and among matches at that start the one with the lexicographically least element ends. This is the match a backtracking engine with lazy quantifiers reports.
- `Header`: the header pattern.
- `Triplet`: the triplet pattern, the triplet reader and the rotation conversion.
- `Lines`: the line splitter.
- `Records`: the `ObjectInfo` record.
- `ActorParser`: `parseActor`.
- `ActorSplitter`: `parseActors`.

The loops of the source are methods:

- the splitter loop;
- the header search and the body loop of `parseActor`;
- the slot-filling loop of `_getFloatTuple`, over an array.

Each method is proved equal to a specification function, and the lemmas are about those functions.

The collaborators are parameters:

- `commonType: string -> string` stands for `getCommonTypeFromInternal`;
- `parse: string -> Option<real>` stands for Python's `float` on a string, with `None` for the `ValueError`.

`parseActor` has three outcomes:

- `Ok(Some(info))`: the record;
- `Ok(None)`: the `return None` for a header without type and name;
- `Err(TupleMismatch(line))`: the exception `_getFloatTuple` raises on an assignment line that its pattern does not match. This is an `AttributeError` on `g.group`, which the `except ValueError` does not catch. It propagates out of `parseActors` too.

Three behaviours of the code are worth noting:

- `parseActors` keeps a `None` result in its list rather than dropping it (udk/udkParser.py:86-87). The model keeps it too.
- When no `End Actor` follows, the slice `text[s:-1]` drops the last character of the text. It does not take the remainder (udk/udkParser.py:84-85). The model drops it too.
- The cursor is set to the found marker and never moved past it, so the loop never ends once the first `Begin Actor` of the text has a block whose parse does not raise (udk/udkParser.py:79-87). `AsWrittenRounds` models that loop as written. `ParseActors` is the corrected loop, which moves the cursor past the marker (see Findings).

`ParseActors` passes the block parse to its loop as the function `ParseActorSpec`. The method `ParseActor` is proved to compute that function.

## Model

| member | source | states |
|---|---|---|
| PyStr.Find | udk/udkParser.py:81 | `str.find(p, from)`: -1 when `p` occurs nowhere at or after `from`, otherwise the first index at or after `from` where `p` occurs |
| PyStr.IsWhitespace | udk/udkParser.py:111-118 | the regex class `\s` of the splitter `\n+\s*` and of the header's `\s+`: the six ASCII whitespace characters (space, tab, line feed, carriage return, vertical tab, form feed), as for a byte-string pattern |
| PyStr.StartsWith | udk/udkParser.py:115 | `s.startswith(p)`: `p` is no longer than `s` and is its prefix; the header search and the `elif` chain (udk/udkParser.py:133-140) test their prefixes with it |
| PyStr.PySlice | udk/udkParser.py:85 | Python's `t[start:stop]`: for bounds inside the text, the substring between them; for a stop of -1 and a start inside the text, the text from the start to one character before the end; never longer than the text |
| PyStr.Occurrences | udk/udkParser.py:79-87 | the positions where `p` occurs from `from` on: every one is an occurrence at or after `from` |
| PyStr.OccurrencesComplete | udk/udkParser.py:79-87 | every occurrence of `p` at or after `from` is among them |
| PyStr.FindIsFirstOccurrence | udk/udkParser.py:81-83 | `find` gives -1 exactly when there are no occurrences, and otherwise the first of them |
| ActorSplitter.BlockShape | udk/udkParser.py:81-85 | the block at a `Begin Actor` contains no `End Actor`; when an `End Actor` follows, the block is the text up to it and starts with `Begin Actor`; when none follows, the block ends one character before the end of the text |
| ActorSplitter.EndNotInsideBegin | udk/udkParser.py:84 | the search for `End Actor` from a `Begin Actor` cannot find one inside the marker itself |
| ActorSplitter.Collect | udk/udkParser.py:79-87 | one result per block start, in order, each being what parsing that block gives; or the error of the first block whose parse raises, every earlier block having parsed |
| ActorSplitter.RoundsVisitOccurrences | udk/udkParser.py:79-87 | the loop, with the cursor moved past each `Begin Actor` found, gives the list so far followed by the results for every later `Begin Actor`, in order |
| ActorSplitter.BlockAt | udk/udkParser.py:84-85 | the block cut at a start: `text[s:eindex]` with `eindex` the first `End Actor` at or after `s`, or -1; `BlockShape` states what it is |
| ActorSplitter.BlockResult | udk/udkParser.py:86 | the result for the block at a start: its safe-mode `parseActor`; `OneEntryPerBegin` ties each entry to it |
| ActorSplitter.ParseActorsSpec | udk/udkParser.py:68-88 | `Collect` of the block results over every `Begin Actor` of the text; `OneEntryPerBegin` and `NoBeginNoActors` state what it holds |
| ActorSplitter.Rounds | udk/udkParser.py:79-87 | the rounds of the corrected loop from a cursor; `RoundsVisitOccurrences` ties them to `Collect` |
| ActorSplitter.ScanBlocks | udk/udkParser.py:79-88 | the corrected loop, with the cursor moved past each `Begin Actor` found, returns one result per `Begin Actor`, in order, or the first error |
| ActorSplitter.ParseActors | udk/udkParser.py:68-88 | the corrected `parseActors` returns the specification: one entry per `Begin Actor`, in order, `None` entries included, or the first error |
| ActorSplitter.OneEntryPerBegin | udk/udkParser.py:68-88 | on success the list has one entry per `Begin Actor` of the text, at increasing positions, covering all of them, and each entry is the safe-mode parse of the block at its marker |
| ActorSplitter.NoBeginNoActors | udk/udkParser.py:81-83 | a text without `Begin Actor` gives the empty list |
| ActorSplitter.AsWrittenRounds | udk/udkParser.py:79-87 | the loop as written: each round sets the cursor to the `Begin Actor` found, appends its block's result, ends at the `break` when there is none, and ends with the exception when the block's parse raises |
| ActorSplitter.AsWrittenStuck | udk/udkParser.py:79-87 | as written, with the cursor on a `Begin Actor` whose block parses, every round finds that marker again and appends its result again |
| ActorSplitter.AsWrittenNeverBreaks | udk/udkParser.py:79-87 | as written, once the first `Begin Actor` of the text has a block whose parse does not raise, any number of rounds runs without reaching the `break`, and every round appends that block's result again |
| ActorSplitter.AsWrittenFirstRound | udk/udkParser.py:79-87 | as written, a text without `Begin Actor` leaves the loop by the `break` with the empty list, and a first block whose parse raises ends the loop with that exception |
| ActorSplitter.OneActorBlock | udk/udkParser.py:81-85 | the one block of `"Begin Actor Class=A Name=B \nEnd Actor"` is its header line and a line feed |
| ActorSplitter.OneActorParses | udk/udkParser.py:91-145 | that block parses in safe mode to the record of type `A` named `B` whose text block holds the empty line |
| ActorSplitter.AsWrittenLoopsOnOneActor | udk/udkParser.py:79-87 | as written, a level holding one actor appends that actor's record in every round and never stops |
| Lines.SplitLines | udk/udkParser.py:110-111 | `re.split("\n+\s*", t)`: at least one piece, no piece contains a line feed, the first piece is the text up to the first line feed, one piece exactly when the text has no line feed, every later non-empty piece starts with a non-blank, and only the first and last pieces can be empty |
| Lines.SplitAtBlankRun | udk/udkParser.py:111 | a line feed followed by blanks is one separator: blank lines and indentation vanish |
| Lines.SplitAtTrailingBlanks | udk/udkParser.py:111 | a text ending in a line feed and blanks leaves one empty last piece |
| Lines.SplitJoin | udk/udkParser.py:111 | splitting lines joined by line feeds gives them back, when no line holds a line feed, every non-empty line after the first starts with a non-blank, and no line between the first and the last is empty |
| ActorParser.FirstStarting | udk/udkParser.py:113-117 | the first line at or after `from` that starts with `p`, or the number of lines |
| ActorParser.HeaderIndex | udk/udkParser.py:109-117 | the header is line 0 in safe mode; otherwise it is the first line starting with `Begin Actor`, or line 0 when no line does |
| ActorParser.FindHeader | udk/udkParser.py:109-117 | the header search loop finds `HeaderIndex` |
| ActorParser.Classify | udk/udkParser.py:133-143 | the destination of a line after the header, by the first prefix of the `elif` chain it starts with; `RoutesByPrefix` states it |
| ActorParser.RoutesByPrefix | udk/udkParser.py:133-143 | a line goes to the destination of the prefix it starts with; an `End Actor` line stops the walk when not safe and goes to the text block in safe mode; a line goes to the text block exactly when it has none of the prefixes that apply |
| ActorParser.SafeKeepsEndActor | udk/udkParser.py:133-134 | an `End Actor` line is text in safe mode and the stop otherwise |
| ActorParser.WalkEnd | udk/udkParser.py:127-134 | the walk covers all lines in safe mode; otherwise it stops at the first `End Actor` line, and no earlier line is a stop |
| ActorParser.FirstRejected | udk/udkParser.py:135-141 | the first walked assignment line that the triplet reader raises for, and no earlier one; or none |
| ActorParser.LastRouted | udk/udkParser.py:135-141 | the last walked line with a given destination, and no later one; or none |
| ActorParser.TextLines | udk/udkParser.py:142-143 | the walked lines that reach the `else` branch, in order; `TextLinesSound` and `TextLinesAllOrNone` state which |
| ActorParser.Pack | udk/udkParser.py:142-143 | `textblock += ("\n"+line)` over those lines from `""`; `PackIsJoin` and `TextSnoc` state it |
| ActorParser.TextLinesSound | udk/udkParser.py:142-143 | the text-block lines are walked lines, all of them routed to the text block |
| ActorParser.TextLinesAllOrNone | udk/udkParser.py:142-143 | all walked lines reach the text block when every one is text, and none when none is |
| ActorParser.Walk | udk/udkParser.py:126-144 | the specification of the body loop: the error of the first walked line the reader rejects, or the record with each field set by its last assignment line and the text block stored; `WalkOutcome` and `LastAssignmentWins` state it |
| ActorParser.WalkOutcome | udk/udkParser.py:127-144 | the walk raises only for a walked assignment line the reader rejects, with that line; otherwise name and both types are those the header gave, whatever the body holds, and the text block is added as an attribute |
| ActorParser.RouteLine | udk/udkParser.py:133-143 | one round of the `elif` chain: it raises exactly for a rejected assignment line; otherwise it sets only the field of the line's prefix (the rotation converted), or appends `"\n" + line` to the text block |
| ActorParser.AppliedSnoc | udk/udkParser.py:135-141 | one more walked line changes exactly the field it assigns and nothing else |
| ActorParser.LatestSnoc | udk/udkParser.py:135-141 | one more walked line changes the value of its own destination only |
| ActorParser.TextSnoc | udk/udkParser.py:142-143 | one more walked line appends `"\n" + line` to the text block when it is text, and nothing otherwise |
| ActorParser.WalkStep | udk/udkParser.py:127-143 | one round of the body loop keeps the record and the text block equal to the walk over the lines seen so far, or ends with the walk's error |
| ActorParser.RejectedStopsWalk | udk/udkParser.py:135-141 | the first rejected walked line is the error of the walk, whatever the record |
| ActorParser.WalkLines | udk/udkParser.py:126-144 | the body loop computes the walk: the error of the first rejected line, or the record with each field set by its last assignment line and the text block stored |
| ActorParser.LastAssignmentWins | udk/udkParser.py:135-141 | a later `Location=`, `Rotation=` or `DrawScale3D=` line overwrites an earlier one: the field holds what the last such line gives |
| ActorParser.NewInfo | udk/udkParser.py:122-125 | the `ObjectInfo` record (`Records.ObjectInfo`) the header starts: its name, its internal type and the common type of that type |
| ActorParser.ParseLines | udk/udkParser.py:113-145 | `parseActor` on the split lines: header choice, header match, then the walk; `ParseLinesOutcome` states it |
| ActorParser.ParseLinesOutcome | udk/udkParser.py:118-145 | the result is `None` exactly when the header line has no match; a record carries the header's name and type, the common type of that type, and only the text block as an attribute; an error names a line after the header that the reader rejects |
| ActorParser.ParseLinesRecord | udk/udkParser.py:118-144 | the `None` and record parts of `ParseLinesOutcome` |
| ActorParser.ParseLinesError | udk/udkParser.py:135-141 | the error part of `ParseLinesOutcome` |
| ActorParser.ParseLinesOfHeader | udk/udkParser.py:122-145 | once the header matched, the result is the walk's error or `Some` of the walk's record |
| ActorParser.ParseActorLines | udk/udkParser.py:109-145 | `parseActor` on the split lines computes its specification |
| ActorParser.ParseAfterHeader | udk/udkParser.py:122-145 | the rest of `parseActor` after the header matched computes its specification |
| ActorParser.ParseActorSpec | udk/udkParser.py:91-145 | `parseActor(text, safe)`: the split lines parsed by `ParseLines` |
| ActorParser.ParseActor | udk/udkParser.py:91-145 | `parseActor` computes its specification on the split text |
| ActorParser.NoiseBeforeHeaderIgnored | udk/udkParser.py:113-127 | when not safe, lines before the first `Begin Actor` line never affect the result |
| ActorParser.HeaderIndexIs | udk/udkParser.py:113-117 | when not safe, the header is the first line that starts with `Begin Actor` |
| ActorParser.EndActorCutsBody | udk/udkParser.py:133-134 | when not safe, an `End Actor` line and everything after it never affect the result |
| ActorParser.WalkStopsAtEnd | udk/udkParser.py:133-134 | when not safe, the walk over lines followed by an `End Actor` line covers no more than the walk over those lines |
| ActorParser.PackIsJoin | udk/udkParser.py:126-144 | the text block is its lines joined by line feeds after an empty first line |
| ActorParser.TextblockRoundTrip | udk/udkParser.py:142-144 | splitting a text block gives back an empty piece and then its lines, for lines as the splitter leaves them: no line feed, a non-blank first character, and only the last one possibly empty |
| Header.MatchHeader | udk/udkParser.py:118 | a match gives a candidate in the line: `Class=`, a non-empty type, ` Name=`, a non-empty name, then a whitespace character |
| Header.HeaderAtIsMatch | udk/udkParser.py:118 | every such candidate is a match of the pattern |
| Header.MatchIsHeaderAt | udk/udkParser.py:118 | every match of the pattern is such a candidate, with its groups where the candidate puts them |
| Header.HeaderLeftmostLazy | udk/udkParser.py:118-123 | when a candidate exists, the search succeeds with the leftmost candidate, then the shortest type, then the shortest name |
| Header.HeaderNoneIffNoCandidate | udk/udkParser.py:118-121 | the search fails exactly when the line has no candidate |
| Header.HeaderEndsOrder | udk/udkParser.py:118 | at one start, the lexicographic order of the matches is shortest type first, then shortest name |
| Header.NameStopsAtFirstBlank | udk/udkParser.py:118-123 | the name read holds no whitespace after its first character |
| Header.HeaderPinned | udk/udkParser.py:118-123 | a candidate with no earlier `C`, no space in the type and no whitespace in the name is the one read |
| Header.PlainHeaderLine | udk/udkParser.py:118-123 | a usual header line gives the type and name written in it, from the position of `Class=` |
| Header.HeaderExample | udk/udkParser.py:118-123 | `Begin Actor Class=Foo Name=Bar Archetype=X` gives type `Foo` and name `Bar` |
| Header.HeaderWithoutTrailingBlankFails | udk/udkParser.py:118-121 | `Begin Actor Class=Foo Name=Bar` has no whitespace after the name, so there is no match |
| LazyMatch.Search | udk/udkParser.py:151 | `re.search` with lazy runs: what it finds is a match of the pattern; `SearchLeast` states which |
| LazyMatch.SearchLeast | udk/udkParser.py:151 | `re.search` with lazy runs: it finds nothing only when no match exists anywhere; what it finds comes before every match, with the least start first and then the least element ends |
| LazyMatch.TightIsLeast | udk/udkParser.py:148-151 | no other match at its start comes before a match whose lazy runs each stop before the first occurrence of the literal that follows them |
| Triplet.Capture | udk/udkParser.py:155 | `g.group(i+1)`: the text of the `i`-th value group of a match of the triplet pattern |
| Triplet.NumOrZero | udk/udkParser.py:154-157 | `float` of a capture, or the `0.0` the slot keeps when `float` raises `ValueError`; `RejectedValueExample` states it |
| Triplet.FloatTupleSpec | udk/udkParser.py:148-159 | `_getFloatTuple` raises only with the line itself |
| Triplet.MismatchIffNoMatch | udk/udkParser.py:151-157 | the reader raises exactly when the pattern matches nowhere in the line |
| Triplet.GetFloatTuple | udk/udkParser.py:149-159 | the slot-filling loop over `[0.0, 0.0, 0.0]` computes the specification |
| Triplet.FloatTupleOfPlainLine | udk/udkParser.py:148-159 | for a usual assignment line the three values are the three written values, in order, each parsed or `0.0` |
| Triplet.TupleLineMatch | udk/udkParser.py:148 | such a line matches the pattern right after its key, with every lazy run as short as it can be |
| Triplet.LocationExample | udk/udkParser.py:148-159 | `Location=(X=1.5,Y=-2.0,Z=0.0)` gives `(1.5, -2.0, 0.0)` |
| Triplet.RejectedValueExample | udk/udkParser.py:153-157 | a value `float` rejects becomes `0.0`, and the other two slots keep their parsed values |
| Triplet.NoParenthesisIsMismatch | udk/udkParser.py:151-157 | a line without `(` makes the reader raise |
| Triplet.ConvertRotationFromUDK | udk/udkParser.py:163-169 | an input of 65536 units becomes 360 degrees; each component is scaled by 360/65536 independently |
| Triplet.RotationExample | udk/udkParser.py:163-169 | `(16384, 32768, 65536)` becomes `(90, 180, 360)` |
| Triplet.RotationRoundTrip | udk/udkParser.py:163-169 | scaling back by 65536/360 restores the input |

## Left out

- Logging: the logger set-up and the `_lg.error` call (udk/udkParser.py:65-66, 120) have no effect on the result.
- `getCommonTypeFromInternal` (udk/udkParser.py:63) comes from a module that is not part of this model. It is the parameter `commonType`.
- Python's `float` on a string is the parameter `parse`. Numbers are `real`, so IEEE double rounding in the parse and in the rotation product is not modelled. The constant 0.0054931640625 is exactly 360/65536 in both.
- The class `ObjectInfo` is imported (udk/udkParser.py:62) from `m2u.helper.ObjectInfo`, which is not part of this model. `Records.ObjectInfo` is a value record with the fields the parser sets, built by `ActorParser.NewInfo` as at udk/udkParser.py:125. Its constructor defaults for position, rotation and scale are unknown and are modelled as `None`. The initial `attrs` is assumed empty. An update replaces the record rather than changing a shared object, so aliasing is not modelled.
- Whitespace (`\s`) is the ASCII set: space, tab, line feed, carriage return, form feed and vertical tab. Unicode whitespace is not modelled.
- Header.MatchHeader: the trailing `\s+` is modelled by its first character. The groups and the success of the search are the same, but the end of the match is not modelled.
- The full `re` engine is not modelled. The three fixed patterns are scanners with the leftmost, lazy semantics.
- Sub-object depth tracking is a comment in the source (udk/udkParser.py:128-132). `Begin Object` lines are routed like any other line.
- Text composition, the reverse direction, lives in another module and is not part of this model.

## Findings

| source | as written | input that shows it | evidently intended | confidence | as-written member | corrected member |
|---|---|---|---|---|---|---|
| udk/udkParser.py:79-87 | `sindex` is set to the found `Begin Actor` and never moved past it, so the next `find` from `sindex` finds the same marker, and the `while True` loop never reaches its `break` | `"Begin Actor Class=A Name=B \nEnd Actor"` | the next search starts after the found marker, so that each block is parsed once and the loop ends | not executed | ActorSplitter.AsWrittenLoopsOnOneActor | ActorSplitter.ParseActors |

=== FILE: actor_parser.dfy ===
/**
  `parseActor` (udk/udkParser.py:91-145): the text of one actor becomes an
  `ObjectInfo`. The text is split into left-trimmed lines, the header line
  gives the name and the internal type, and every later line sets the
  position, the rotation or the scale, or is kept in the text block.
*/
module ActorParser {
  import opened Wrappers
  import opened PyStr
  import opened Lines
  import opened Header
  import opened Records
  import opened Triplet

  const BEGIN_ACTOR: string := "Begin Actor"
  const END_ACTOR: string := "End Actor"
  const LOCATION: string := "Location="
  const ROTATION: string := "Rotation="
  const DRAW_SCALE: string := "DrawScale3D="

  /** The first index at or after `from` of a line starting with `p`, or `|lines|`. */
  function FirstStarting(lines: seq<string>, p: string, from: nat): (r: nat)
    requires from <= |lines|
    ensures from <= r <= |lines|
    ensures forall j :: from <= j < r ==> !StartsWith(lines[j], p)
    ensures r < |lines| ==> StartsWith(lines[r], p)
    decreases |lines| - from
  {
    if from == |lines| || StartsWith(lines[from], p) then from else FirstStarting(lines, p, from + 1)
  }

  /** The line the header is read from: line 0 in safe mode, otherwise the
      first line starting with `Begin Actor`, or line 0 when there is none. */
  function HeaderIndex(lines: seq<string>, safe: bool): (h: nat)
    requires |lines| > 0
    ensures h < |lines|
    ensures safe ==> h == 0
    ensures !safe ==>
      (StartsWith(lines[h], BEGIN_ACTOR) && forall j :: 0 <= j < h ==> !StartsWith(lines[j], BEGIN_ACTOR)) ||
      (h == 0 && forall j :: 0 <= j < |lines| ==> !StartsWith(lines[j], BEGIN_ACTOR))
  {
    if safe then 0
    else var f := FirstStarting(lines, BEGIN_ACTOR, 0); if f == |lines| then 0 else f
  }

  /** Where a line after the header goes. */
  datatype Route = StopAtEnd | ToPosition | ToRotation | ToScale | ToText

  /** The `if`/`elif` chain of the body loop. */
  function Classify(line: string, safe: bool): Route {
    if !safe && StartsWith(line, END_ACTOR) then StopAtEnd
    else if StartsWith(line, LOCATION) then ToPosition
    else if StartsWith(line, ROTATION) then ToRotation
    else if StartsWith(line, DRAW_SCALE) then ToScale
    else ToText
  }

  /** The four prefixes begin with different letters, so the order of the
      tests matters only for what is left over: a line goes to the
      destination of the prefix it has, whatever the mode. */
  lemma RoutesByPrefix(line: string, safe: bool)
    ensures StartsWith(line, LOCATION) ==> Classify(line, safe) == ToPosition
    ensures StartsWith(line, ROTATION) ==> Classify(line, safe) == ToRotation
    ensures StartsWith(line, DRAW_SCALE) ==> Classify(line, safe) == ToScale
    ensures StartsWith(line, END_ACTOR) ==> Classify(line, safe) == (if safe then ToText else StopAtEnd)
    ensures Classify(line, safe) == ToText <==>
      !StartsWith(line, LOCATION) && !StartsWith(line, ROTATION) && !StartsWith(line, DRAW_SCALE) &&
      (safe || !StartsWith(line, END_ACTOR))
  {
    IsAtHead(line, LOCATION, 0);
    IsAtHead(line, ROTATION, 0);
    IsAtHead(line, DRAW_SCALE, 0);
    IsAtHead(line, END_ACTOR, 0);
  }

  predicate IsAssignment(r: Route) {
    r == ToPosition || r == ToRotation || r == ToScale
  }

  /** A line that `_getFloatTuple` is called on and raises for. */
  predicate Rejected(line: string, safe: bool, parse: string -> Option<real>) {
    IsAssignment(Classify(line, safe)) && FloatTupleSpec(line, parse).Err?
  }

  /** Where the walk over the body stops: the first `End Actor` line when not
      safe, otherwise the end. */
  function WalkEnd(body: seq<string>, safe: bool): (n: nat)
    ensures n <= |body|
    ensures forall j :: 0 <= j < n ==> Classify(body[j], safe) != StopAtEnd
    ensures n < |body| ==> Classify(body[n], safe) == StopAtEnd
  {
    if safe then |body| else FirstStarting(body, END_ACTOR, 0)
  }

  /** The first walked line the triplet reader raises for. */
  function FirstRejected(w: seq<string>, safe: bool, parse: string -> Option<real>): (r: Option<nat>)
    ensures r.Some? ==> r.value < |w| && Rejected(w[r.value], safe, parse) &&
                        forall j :: 0 <= j < r.value ==> !Rejected(w[j], safe, parse)
    ensures r.None? ==> forall j :: 0 <= j < |w| ==> !Rejected(w[j], safe, parse)
  {
    if |w| == 0 then None
    else if Rejected(w[0], safe, parse) then Some(0)
    else match FirstRejected(w[1..], safe, parse)
      case None => None
      case Some(k) => Some(k + 1)
  }

  /** The last walked line with route `route`. */
  function LastRouted(w: seq<string>, route: Route, safe: bool): (r: Option<nat>)
    ensures r.Some? ==> r.value < |w| && Classify(w[r.value], safe) == route &&
                        forall j :: r.value < j < |w| ==> Classify(w[j], safe) != route
    ensures r.None? ==> forall j :: 0 <= j < |w| ==> Classify(w[j], safe) != route
  {
    if |w| == 0 then None
    else if Classify(w[|w| - 1], safe) == route then Some(|w| - 1)
    else LastRouted(w[..|w| - 1], route, safe)
  }

  /** The triple of an assignment line that the triplet reader accepts. */
  function TupleOf(line: string, parse: string -> Option<real>): Triple
    requires FloatTupleSpec(line, parse).Ok?
  {
    FloatTupleSpec(line, parse).value
  }

  /** The value the last assignment with route `route` leaves, or `prior`. */
  function Latest(w: seq<string>, route: Route, safe: bool, parse: string -> Option<real>, prior: Option<Triple>): Option<Triple>
    requires IsAssignment(route) && FirstRejected(w, safe, parse).None?
  {
    match LastRouted(w, route, safe)
    case None => prior
    case Some(k) =>
      var t := TupleOf(w[k], parse);
      Some(if route == ToRotation then ConvertRotationFromUDK(t) else t)
  }

  /** The record after the walked lines `w`, before the text block is stored:
      each of position, rotation and scale holds what its last line assigned. */
  function Applied(w: seq<string>, safe: bool, parse: string -> Option<real>, base: ObjectInfo): ObjectInfo
    requires FirstRejected(w, safe, parse).None?
  {
    base.(position := Latest(w, ToPosition, safe, parse, base.position),
          rotation := Latest(w, ToRotation, safe, parse, base.rotation),
          scale := Latest(w, ToScale, safe, parse, base.scale))
  }

  /** The walked lines that go to the text block, in order. */
  function TextLines(w: seq<string>, safe: bool): seq<string> {
    if |w| == 0 then []
    else
      var last := w[|w| - 1];
      TextLines(w[..|w| - 1], safe) + (if Classify(last, safe) == ToText then [last] else [])
  }

  /** Every text line is a walked line routed to the text block. */
  lemma {:induction false} TextLinesSound(w: seq<string>, safe: bool)
    ensures |TextLines(w, safe)| <= |w|
    ensures forall k :: 0 <= k < |TextLines(w, safe)| ==>
      Classify(TextLines(w, safe)[k], safe) == ToText && TextLines(w, safe)[k] in w
    decreases |w|
  {
    if |w| > 0 {
      var u := w[..|w| - 1];
      TextLinesSound(u, safe);
      assert forall k :: 0 <= k < |u| ==> u[k] == w[k];
    }
  }

  /** All walked lines are kept when every one goes to the text block, and
      none when none does. */
  lemma {:induction false} TextLinesAllOrNone(w: seq<string>, safe: bool)
    ensures (forall j :: 0 <= j < |w| ==> Classify(w[j], safe) == ToText) ==> TextLines(w, safe) == w
    ensures (forall j :: 0 <= j < |w| ==> Classify(w[j], safe) != ToText) ==> TextLines(w, safe) == []
    decreases |w|
  {
    if |w| > 0 {
      var u := w[..|w| - 1];
      TextLinesAllOrNone(u, safe);
      assert forall k :: 0 <= k < |u| ==> u[k] == w[k];
      assert w == u + [w[|w| - 1]];
    }
  }

  /** The text block: `"\n" + line` for every line, in order. */
  function Pack(ls: seq<string>): string {
    if |ls| == 0 then "" else Pack(ls[..|ls| - 1]) + "\n" + ls[|ls| - 1]
  }

  /** The record the header starts: name and internal type from the header,
      the common type from the type table, nothing else assigned yet. */
  function NewInfo(h: HeaderMatch, commonType: string -> string): ObjectInfo {
    ObjectInfo(h.name, h.typeInternal, commonType(h.typeInternal), None, None, None, map[])
  }

  /** The walk over the lines after the header, from the record `base`: the
      walked lines are those before the first `End Actor` (when not safe);
      the first of them the triplet reader raises for is the error, else
      each field holds what its last line assigned and the text block holds
      the remaining lines. */
  function Walk(body: seq<string>, safe: bool, parse: string -> Option<real>, base: ObjectInfo)
    : Result<ObjectInfo, ParseError>
  {
    var w := body[..WalkEnd(body, safe)];
    match FirstRejected(w, safe, parse)
    case Some(k) => Err(TupleMismatch(w[k]))
    case None =>
      Ok(Applied(w, safe, parse, base).(attrs := base.attrs[TEXTBLOCK := Pack(TextLines(w, safe))]))
  }

  /** The walk raises for a walked line the triplet reader rejects, and
      otherwise keeps name and types and adds the text block. */
  lemma WalkOutcome(body: seq<string>, safe: bool, parse: string -> Option<real>, base: ObjectInfo)
    ensures var r := Walk(body, safe, parse, base);
      (r.Err? ==>
        exists k :: 0 <= k < WalkEnd(body, safe) && Rejected(body[k], safe, parse) && r.error == TupleMismatch(body[k])) &&
      (r.Ok? ==>
        r.value.name == base.name && r.value.typeInternal == base.typeInternal &&
        r.value.typeCommon == base.typeCommon && r.value.attrs.Keys == base.attrs.Keys + {TEXTBLOCK})
  {
    var w := body[..WalkEnd(body, safe)];
    match FirstRejected(w, safe, parse)
    case Some(k) =>
      assert w[k] == body[k];
    case None =>
  }

  /** `parseActor` on the lines of the text. `Ok(None)` is the `return None`
      for a header without `Class=… Name=…`; `Err` is the exception the
      triplet reader raises. */
  function ParseLines(lines: seq<string>, safe: bool, commonType: string -> string,
                      parse: string -> Option<real>): Result<Option<ObjectInfo>, ParseError>
    requires |lines| > 0
  {
    Assemble(lines, safe, commonType, WalkWith(safe, parse))
  }

  /** The walk as a function of the lines after the header and the record
      the header starts. */
  function WalkWith(safe: bool, parse: string -> Option<real>): (seq<string>, ObjectInfo) -> Result<ObjectInfo, ParseError> {
    (body: seq<string>, base: ObjectInfo) => Walk(body, safe, parse, base)
  }

  /** The header search and the header match, with the walk after the header
      line as the parameter `walk`. */
  function Assemble(lines: seq<string>, safe: bool, commonType: string -> string,
                    walk: (seq<string>, ObjectInfo) -> Result<ObjectInfo, ParseError>): Result<Option<ObjectInfo>, ParseError>
    requires |lines| > 0
  {
    var h := HeaderIndex(lines, safe);
    match MatchHeader(lines[h])
    case None => Ok(None)
    case Some(hm) => Finish(walk(lines[h + 1..], NewInfo(hm, commonType)))
  }

  lemma AssembleAt(lines: seq<string>, safe: bool, commonType: string -> string,
                   walk: (seq<string>, ObjectInfo) -> Result<ObjectInfo, ParseError>, h: nat)
    requires |lines| > 0 && h == HeaderIndex(lines, safe)
    ensures MatchHeader(lines[h]).None? ==> Assemble(lines, safe, commonType, walk) == Ok(None)
    ensures MatchHeader(lines[h]).Some? ==>
      Assemble(lines, safe, commonType, walk) == Finish(walk(lines[h + 1..], NewInfo(MatchHeader(lines[h]).value, commonType)))
  {
  }

  /** The walk's outcome as `parseActor` returns it: the exception, or the record. */
  function Finish(w: Result<ObjectInfo, ParseError>): Result<Option<ObjectInfo>, ParseError> {
    match w
    case Err(e) => Err(e)
    case Ok(info) => Ok(Some(info))
  }

  /** `None` exactly when the header line has no `Class=… Name=…`; otherwise
      the record carries the header's name and type and the common type, with
      the text block as its one attribute, or the parse raises for a later
      line the triplet reader rejects. */
  lemma ParseLinesOutcome(lines: seq<string>, safe: bool, commonType: string -> string,
                          parse: string -> Option<real>)
    requires |lines| > 0
    ensures var r, h := ParseLines(lines, safe, commonType, parse), HeaderIndex(lines, safe);
      (r == Ok(None) <==> MatchHeader(lines[h]).None?) &&
      (r.Ok? && r.value.Some? ==>
        var hm, info := MatchHeader(lines[h]).value, r.value.value;
        info.name == hm.name && info.typeInternal == hm.typeInternal &&
        info.typeCommon == commonType(hm.typeInternal) && info.attrs.Keys == {TEXTBLOCK}) &&
      (r.Err? ==>
        exists k :: h < k < |lines| && Rejected(lines[k], safe, parse) && r.error == TupleMismatch(lines[k]))
  {
    ParseLinesRecord(lines, safe, commonType, parse);
    ParseLinesError(lines, safe, commonType, parse);
  }

  lemma ParseLinesRecord(lines: seq<string>, safe: bool, commonType: string -> string,
                         parse: string -> Option<real>)
    requires |lines| > 0
    ensures var r, h := ParseLines(lines, safe, commonType, parse), HeaderIndex(lines, safe);
      (r == Ok(None) <==> MatchHeader(lines[h]).None?) &&
      (r.Ok? && r.value.Some? ==>
        var hm, info := MatchHeader(lines[h]).value, r.value.value;
        info.name == hm.name && info.typeInternal == hm.typeInternal &&
        info.typeCommon == commonType(hm.typeInternal) && info.attrs.Keys == {TEXTBLOCK})
  {
    var h := HeaderIndex(lines, safe);
    AssembleAt(lines, safe, commonType, WalkWith(safe, parse), h);
    if MatchHeader(lines[h]).Some? {
      var hm := MatchHeader(lines[h]).value;
      var w := Walk(lines[h + 1..], safe, parse, NewInfo(hm, commonType));
      ParseLinesOfHeader(lines, safe, commonType, parse, h, hm, w);
      WalkOutcome(lines[h + 1..], safe, parse, NewInfo(hm, commonType));
    }
  }

  lemma ParseLinesError(lines: seq<string>, safe: bool, commonType: string -> string,
                        parse: string -> Option<real>)
    requires |lines| > 0
    ensures var r, h := ParseLines(lines, safe, commonType, parse), HeaderIndex(lines, safe);
      r.Err? ==> exists k :: h < k < |lines| && Rejected(lines[k], safe, parse) && r.error == TupleMismatch(lines[k])
  {
    var h := HeaderIndex(lines, safe);
    AssembleAt(lines, safe, commonType, WalkWith(safe, parse), h);
    if MatchHeader(lines[h]).Some? {
      var hm := MatchHeader(lines[h]).value;
      var body := lines[h + 1..];
      var w := Walk(body, safe, parse, NewInfo(hm, commonType));
      ParseLinesOfHeader(lines, safe, commonType, parse, h, hm, w);
      WalkOutcome(body, safe, parse, NewInfo(hm, commonType));
      if w.Err? {
        var k :| 0 <= k < WalkEnd(body, safe) && Rejected(body[k], safe, parse) && w.error == TupleMismatch(body[k]);
        assert body[k] == lines[h + 1 + k];
      }
    }
  }

  /** What `parseActor(text, safe)` returns. */
  function ParseActorSpec(text: string, safe: bool, commonType: string -> string,
                          parse: string -> Option<real>): Result<Option<ObjectInfo>, ParseError>
  {
    ParseLines(SplitLines(text), safe, commonType, parse)
  }

  lemma FirstRejectedSnoc(w: seq<string>, l: string, safe: bool, parse: string -> Option<real>)
    ensures FirstRejected(w + [l], safe, parse) ==
      if FirstRejected(w, safe, parse).Some? then FirstRejected(w, safe, parse)
      else if Rejected(l, safe, parse) then Some(|w|) else None
  {
    var v := w + [l];
    assert forall j :: 0 <= j < |w| ==> v[j] == w[j];
    assert v[|w|] == l;
  }

  lemma LastRoutedSnoc(w: seq<string>, l: string, route: Route, safe: bool)
    ensures LastRouted(w + [l], route, safe) ==
      if Classify(l, safe) == route then Some(|w|) else LastRouted(w, route, safe)
  {
    assert (w + [l])[..|w|] == w;
  }

  /** One more walked line adds `"\n" + line` to the text block, or nothing. */
  lemma TextSnoc(w: seq<string>, l: string, safe: bool)
    ensures Pack(TextLines(w + [l], safe)) ==
      if Classify(l, safe) == ToText then Pack(TextLines(w, safe)) + "\n" + l else Pack(TextLines(w, safe))
  {
    assert (w + [l])[..|w|] == w;
    var t := TextLines(w, safe);
    if Classify(l, safe) == ToText {
      assert (t + [l])[..|t|] == t;
    } else {
      assert t + [] == t;
    }
  }

  /** One more walked line changes exactly the field it assigns. */
  lemma AppliedSnoc(w: seq<string>, l: string, safe: bool, parse: string -> Option<real>, base: ObjectInfo)
    requires FirstRejected(w + [l], safe, parse).None?
    ensures FirstRejected(w, safe, parse).None? && !Rejected(l, safe, parse)
    ensures var before := Applied(w, safe, parse, base);
      Applied(w + [l], safe, parse, base) ==
        match Classify(l, safe)
        case ToPosition => before.(position := Some(TupleOf(l, parse)))
        case ToRotation => before.(rotation := Some(ConvertRotationFromUDK(TupleOf(l, parse))))
        case ToScale => before.(scale := Some(TupleOf(l, parse)))
        case _ => before
  {
    FirstRejectedSnoc(w, l, safe, parse);
    LatestSnoc(w, l, ToPosition, safe, parse, base.position);
    LatestSnoc(w, l, ToRotation, safe, parse, base.rotation);
    LatestSnoc(w, l, ToScale, safe, parse, base.scale);
  }

  /** One more walked line changes the value of its own route only. */
  lemma LatestSnoc(w: seq<string>, l: string, route: Route, safe: bool, parse: string -> Option<real>, prior: Option<Triple>)
    requires IsAssignment(route) && FirstRejected(w + [l], safe, parse).None?
    ensures FirstRejected(w, safe, parse).None? && !Rejected(l, safe, parse)
    ensures Latest(w + [l], route, safe, parse, prior) ==
      if Classify(l, safe) != route then Latest(w, route, safe, parse, prior)
      else var t := TupleOf(l, parse); Some(if route == ToRotation then ConvertRotationFromUDK(t) else t)
  {
    FirstRejectedSnoc(w, l, safe, parse);
    LastRoutedSnoc(w, l, route, safe);
    var v := w + [l];
    assert v[|w|] == l;
    if Classify(l, safe) != route && LastRouted(w, route, safe).Some? {
      var k := LastRouted(w, route, safe).value;
      assert v[k] == w[k];
    }
  }

  /** The `elif` chain for one body line that is not a stop: an assignment
      line sets its field from the triplet reader (which may raise), any
      other line is appended to the text block. */
  method RouteLine(line: string, safe: bool, parse: string -> Option<real>, info: ObjectInfo, textblock: string)
    returns (r: Result<(ObjectInfo, string), ParseError>)
    requires Classify(line, safe) != StopAtEnd
    ensures r.Err? <==> Rejected(line, safe, parse)
    ensures r.Err? ==> r.error == TupleMismatch(line)
    ensures r.Ok? ==>
      r.value.0 == match Classify(line, safe)
        case ToPosition => info.(position := Some(TupleOf(line, parse)))
        case ToRotation => info.(rotation := Some(ConvertRotationFromUDK(TupleOf(line, parse))))
        case ToScale => info.(scale := Some(TupleOf(line, parse)))
        case _ => info
    ensures r.Ok? ==> r.value.1 == if Classify(line, safe) == ToText then textblock + "\n" + line else textblock
  {
    RoutesByPrefix(line, safe);
    if StartsWith(line, LOCATION) {
      var v := GetFloatTuple(line, parse);
      if v.Err? {
        return Err(v.error);
      }
      return Ok((info.(position := Some(v.value)), textblock));
    } else if StartsWith(line, ROTATION) {
      var rot := GetFloatTuple(line, parse);
      if rot.Err? {
        return Err(rot.error);
      }
      return Ok((info.(rotation := Some(ConvertRotationFromUDK(rot.value))), textblock));
    } else if StartsWith(line, DRAW_SCALE) {
      var v := GetFloatTuple(line, parse);
      if v.Err? {
        return Err(v.error);
      }
      return Ok((info.(scale := Some(v.value)), textblock));
    } else {
      return Ok((info, textblock + "\n" + line));
    }
  }

  /** One round of the body loop on the line `body[i]`, which is walked:
      the error ends the walk, otherwise record and text block move on to
      the walked lines `body[..i + 1]`. */
  method WalkStep(body: seq<string>, i: nat, safe: bool, parse: string -> Option<real>, base: ObjectInfo,
                  info: ObjectInfo, textblock: string)
    returns (r: Result<(ObjectInfo, string), ParseError>)
    requires i < WalkEnd(body, safe)
    requires FirstRejected(body[..i], safe, parse).None?
    requires info == Applied(body[..i], safe, parse, base)
    requires textblock == Pack(TextLines(body[..i], safe))
    ensures r.Err? ==> Walk(body, safe, parse, base) == Err(r.error)
    ensures r.Ok? ==>
      FirstRejected(body[..i + 1], safe, parse).None? &&
      r.value.0 == Applied(body[..i + 1], safe, parse, base) &&
      r.value.1 == Pack(TextLines(body[..i + 1], safe))
  {
    var line := body[i];
    ghost var w := body[..i];
    assert body[..i + 1] == w + [line];
    r := RouteLine(line, safe, parse, info, textblock);
    if r.Err? {
      RejectedStopsWalk(body, i, safe, parse);
      return;
    }
    FirstRejectedSnoc(w, line, safe, parse);
    AppliedSnoc(w, line, safe, parse, base);
    TextSnoc(w, line, safe);
  }

  /** The body loop of `parseActor`, from the record the header started. */
  method WalkLines(body: seq<string>, safe: bool, parse: string -> Option<real>, base: ObjectInfo)
    returns (r: Result<ObjectInfo, ParseError>)
    ensures r == Walk(body, safe, parse, base)
  {
    var info := base;
    var textblock := "";
    var i := 0;
    while i < |body|
      invariant i <= WalkEnd(body, safe)
      invariant FirstRejected(body[..i], safe, parse).None?
      invariant info == Applied(body[..i], safe, parse, base)
      invariant textblock == Pack(TextLines(body[..i], safe))
    {
      if !safe && StartsWith(body[i], END_ACTOR) {
        break;
      }
      var step := WalkStep(body, i, safe, parse, base, info, textblock);
      if step.Err? {
        return Err(step.error);
      }
      info, textblock := step.value.0, step.value.1;
      i := i + 1;
    }
    assert i == WalkEnd(body, safe);
    assert body[..i] == body[..WalkEnd(body, safe)];
    info := info.(attrs := info.attrs[TEXTBLOCK := textblock]);
    return Ok(info);
  }

  /** The first rejected line ends the walk with its error. */
  lemma RejectedStopsWalk(body: seq<string>, i: nat, safe: bool, parse: string -> Option<real>)
    requires i < WalkEnd(body, safe) && Rejected(body[i], safe, parse)
    requires FirstRejected(body[..i], safe, parse).None?
    ensures forall base :: Walk(body, safe, parse, base) == Err(TupleMismatch(body[i]))
  {
    var w := body[..WalkEnd(body, safe)];
    assert w[..i] == body[..i] && w[i] == body[i];
    FirstRejectedAt(w, i, safe, parse);
  }

  /** The first rejected line is the one at `i` when it is rejected and no
      line before it is. */
  lemma FirstRejectedAt(w: seq<string>, i: nat, safe: bool, parse: string -> Option<real>)
    requires i < |w| && Rejected(w[i], safe, parse)
    requires FirstRejected(w[..i], safe, parse).None?
    ensures FirstRejected(w, safe, parse) == Some(i)
  {
    assert forall j :: 0 <= j < i ==> w[..i][j] == w[j];
  }

  /** The search for the header line in `parseActor`: in safe mode line 0,
      otherwise the first line starting with `Begin Actor`, line 0 when no
      line does. */
  method FindHeader(lines: seq<string>, safe: bool) returns (sindex: nat)
    requires |lines| > 0
    ensures sindex == HeaderIndex(lines, safe)
  {
    sindex := 0;
    if !safe {
      for i := 0 to |lines|
        invariant sindex == 0
        invariant forall j :: 0 <= j < i ==> !StartsWith(lines[j], BEGIN_ACTOR)
      {
        if StartsWith(lines[i], BEGIN_ACTOR) {
          sindex := i;
          break;
        }
      }
    }
  }

  /** `parseActor`. */
  method ParseActor(text: string, safe: bool, commonType: string -> string, parse: string -> Option<real>)
    returns (r: Result<Option<ObjectInfo>, ParseError>)
    ensures r == ParseActorSpec(text, safe, commonType, parse)
  {
    var lines := SplitLines(text);
    r := ParseActorLines(lines, safe, commonType, parse);
  }

  /** `parseActor` once the text is split into lines. */
  method ParseActorLines(lines: seq<string>, safe: bool, commonType: string -> string, parse: string -> Option<real>)
    returns (r: Result<Option<ObjectInfo>, ParseError>)
    requires |lines| > 0
    ensures r == ParseLines(lines, safe, commonType, parse)
  {
    var sindex := FindHeader(lines, safe);
    var g := MatchHeader(lines[sindex]);
    if g.None? {
      return Ok(None);
    }
    r := ParseAfterHeader(lines, safe, commonType, parse, sindex, g.value);
  }

  /** The rest of `parseActor` once the header line `lines[sindex]` is read:
      the walk over the lines after it. */
  method ParseAfterHeader(lines: seq<string>, safe: bool, commonType: string -> string,
                          parse: string -> Option<real>, sindex: nat, hm: HeaderMatch)
    returns (r: Result<Option<ObjectInfo>, ParseError>)
    requires |lines| > 0 && sindex == HeaderIndex(lines, safe) && MatchHeader(lines[sindex]) == Some(hm)
    ensures r == ParseLines(lines, safe, commonType, parse)
  {
    var info := WalkLines(lines[sindex + 1..], safe, parse, NewInfo(hm, commonType));
    ParseLinesOfHeader(lines, safe, commonType, parse, sindex, hm, info);
    if info.Err? {
      return Err(info.error);
    }
    return Ok(Some(info.value));
  }

  /** `ParseLines` once the header line is read: the walk's error, or the
      record it builds. */
  lemma ParseLinesOfHeader(lines: seq<string>, safe: bool, commonType: string -> string,
                           parse: string -> Option<real>, h: nat, hm: HeaderMatch, w: Result<ObjectInfo, ParseError>)
    requires |lines| > 0 && h == HeaderIndex(lines, safe) && MatchHeader(lines[h]) == Some(hm)
    requires w == Walk(lines[h + 1..], safe, parse, NewInfo(hm, commonType))
    ensures w.Err? ==> ParseLines(lines, safe, commonType, parse) == Err(w.error)
    ensures w.Ok? ==> ParseLines(lines, safe, commonType, parse) == Ok(Some(w.value))
  {
    AssembleAt(lines, safe, commonType, WalkWith(safe, parse), h);
  }

  /** The text block is the lines joined after an empty first line. */
  lemma {:induction false} PackIsJoin(ls: seq<string>)
    ensures Pack(ls) == Join([""] + ls)
    decreases |ls|
  {
    if |ls| > 0 {
      var u := ls[..|ls| - 1];
      PackIsJoin(u);
      JoinSnoc([""] + u, ls[|ls| - 1]);
      assert [""] + u + [ls[|ls| - 1]] == [""] + ls;
    }
  }

  /** Splitting a text block gives back its lines after one empty piece,
      for lines as the splitter leaves them: no line feed, a non-blank first
      character, and only the last one possibly empty. */
  lemma TextblockRoundTrip(ls: seq<string>)
    requires forall k :: 0 <= k < |ls| ==> NoNewline(ls[k]) && (|ls[k]| > 0 ==> !IsWhitespace(ls[k][0]))
    requires forall k :: 0 <= k < |ls| - 1 ==> |ls[k]| > 0
    ensures SplitLines(Pack(ls)) == [""] + ls
  {
    PackIsJoin(ls);
    var xs := [""] + ls;
    assert forall k :: 0 < k < |xs| ==> xs[k] == ls[k - 1];
    assert Splittable(xs);
    SplitJoin(xs);
  }

  /** With every field's last assignment line known, the record holds what
      that line gives: a later line of the same kind overwrites an earlier one. */
  lemma LastAssignmentWins(w: seq<string>, k: nat, prefix: string, safe: bool,
                           parse: string -> Option<real>, base: ObjectInfo)
    requires FirstRejected(w, safe, parse).None?
    requires prefix in {LOCATION, ROTATION, DRAW_SCALE}
    requires k < |w| && StartsWith(w[k], prefix)
    requires forall j :: k < j < |w| ==> !StartsWith(w[j], prefix)
    ensures FloatTupleSpec(w[k], parse).Ok?
    ensures prefix == LOCATION ==> Applied(w, safe, parse, base).position == Some(TupleOf(w[k], parse))
    ensures prefix == ROTATION ==>
      Applied(w, safe, parse, base).rotation == Some(ConvertRotationFromUDK(TupleOf(w[k], parse)))
    ensures prefix == DRAW_SCALE ==> Applied(w, safe, parse, base).scale == Some(TupleOf(w[k], parse))
  {
    RoutesByPrefix(w[k], safe);
    var route := Classify(w[k], safe);
    forall j | k < j < |w| ensures Classify(w[j], safe) != route {
      assert !StartsWith(w[j], prefix);
    }
    LastRoutedIs(w, k, route, safe);
  }

  /** The line at `k` is the last one with its route. */
  lemma LastRoutedIs(w: seq<string>, k: nat, route: Route, safe: bool)
    requires k < |w| && Classify(w[k], safe) == route
    requires forall j :: k < j < |w| ==> Classify(w[j], safe) != route
    ensures LastRouted(w, route, safe) == Some(k)
  {
  }

  /** When not safe, lines before the first `Begin Actor` line never reach
      the record. */
  lemma NoiseBeforeHeaderIgnored(pre: seq<string>, ls: seq<string>, commonType: string -> string,
                                 parse: string -> Option<real>)
    requires |ls| > 0 && StartsWith(ls[0], BEGIN_ACTOR)
    requires forall j :: 0 <= j < |pre| ==> !StartsWith(pre[j], BEGIN_ACTOR)
    ensures ParseLines(pre + ls, false, commonType, parse) == ParseLines(ls, false, commonType, parse)
  {
    var all := pre + ls;
    assert all[|pre|..] == ls;
    assert forall j :: 0 <= j < |pre| ==> all[j] == pre[j];
    DropNoise(all, ls, |pre|, commonType, parse);
  }

  /** The same for the lines `all` whose suffix from `n` is `ls`. */
  lemma DropNoise(all: seq<string>, ls: seq<string>, n: nat, commonType: string -> string,
                  parse: string -> Option<real>)
    requires n <= |all| && all[n..] == ls && |ls| > 0 && StartsWith(ls[0], BEGIN_ACTOR)
    requires forall j :: 0 <= j < n ==> !StartsWith(all[j], BEGIN_ACTOR)
    ensures ParseLines(all, false, commonType, parse) == ParseLines(ls, false, commonType, parse)
  {
    assert all[n] == ls[0];
    HeaderIndexIs(all, n);
    HeaderIndexIs(ls, 0);
    assert all[n + 1..] == ls[1..];
    AssembleSameTail(all, ls, false, commonType, WalkWith(false, parse), n, 0);
  }

  /** Two line sequences that agree from their header lines on assemble the
      same outcome. */
  lemma AssembleSameTail(l0: seq<string>, l1: seq<string>, safe: bool, commonType: string -> string,
                         walk: (seq<string>, ObjectInfo) -> Result<ObjectInfo, ParseError>, h0: nat, h1: nat)
    requires |l0| > 0 && |l1| > 0 && h0 == HeaderIndex(l0, safe) && h1 == HeaderIndex(l1, safe)
    requires l0[h0] == l1[h1] && l0[h0 + 1..] == l1[h1 + 1..]
    ensures Assemble(l0, safe, commonType, walk) == Assemble(l1, safe, commonType, walk)
  {
    AssembleAt(l0, safe, commonType, walk, h0);
    AssembleAt(l1, safe, commonType, walk, h1);
  }

  /** When not safe, the header is the first line starting with `Begin Actor`. */
  lemma HeaderIndexIs(lines: seq<string>, h: nat)
    requires h < |lines| && StartsWith(lines[h], BEGIN_ACTOR)
    requires forall j :: 0 <= j < h ==> !StartsWith(lines[j], BEGIN_ACTOR)
    ensures HeaderIndex(lines, false) == h
  {
  }

  /** The walk reads only the walked lines. */
  lemma WalkReadsWalked(b0: seq<string>, b1: seq<string>, safe: bool, parse: string -> Option<real>, base: ObjectInfo)
    requires b0[..WalkEnd(b0, safe)] == b1[..WalkEnd(b1, safe)]
    ensures WalkWith(safe, parse)(b0, base) == WalkWith(safe, parse)(b1, base)
  {
  }

  /** When not safe, the walk over `b + [e] + post` with `e` an `End Actor`
      line walks at most the lines of `b`, the same ones as the walk over `b`. */
  lemma WalkStopsAtEnd(b: seq<string>, e: string, post: seq<string>)
    requires StartsWith(e, END_ACTOR)
    ensures var n := WalkEnd(b, false); WalkEnd(b + [e] + post, false) == n && (b + [e] + post)[..n] == b[..n]
  {
    var all := b + [e] + post;
    RoutesByPrefix(e, false);
    var n := WalkEnd(b, false);
    assert forall j :: 0 <= j < |b| ==> all[j] == b[j];
    assert all[|b|] == e;
    assert Classify(all[n], false) == StopAtEnd;
    assert all[..n] == b[..n];
  }

  /** When not safe, the first `End Actor` line after the header and
      everything after it are left out. */
  lemma EndActorCutsBody(pre: seq<string>, e: string, post: seq<string>, commonType: string -> string,
                         parse: string -> Option<real>)
    requires |pre| > 0 && StartsWith(pre[0], BEGIN_ACTOR) && StartsWith(e, END_ACTOR)
    ensures ParseLines(pre + [e] + post, false, commonType, parse) == ParseLines(pre, false, commonType, parse)
  {
    var all := pre + [e] + post;
    assert all[0] == pre[0];
    var b0 := pre[1..];
    assert all[1..] == b0 + [e] + post;
    WalkStopsAtEnd(b0, e, post);
    SameWalkedLines(all, pre, commonType, parse);
  }

  /** Two line sequences whose first lines are the same `Begin Actor` line,
      and whose walks after it walk the same lines, parse alike. */
  lemma SameWalkedLines(l0: seq<string>, l1: seq<string>, commonType: string -> string,
                        parse: string -> Option<real>)
    requires |l0| > 0 && |l1| > 0 && l0[0] == l1[0] && StartsWith(l0[0], BEGIN_ACTOR)
    requires l0[1..][..WalkEnd(l0[1..], false)] == l1[1..][..WalkEnd(l1[1..], false)]
    ensures ParseLines(l0, false, commonType, parse) == ParseLines(l1, false, commonType, parse)
  {
    HeaderIndexIs(l0, 0);
    HeaderIndexIs(l1, 0);
    if MatchHeader(l0[0]).Some? {
      WalkReadsWalked(l0[1..], l1[1..], false, parse, NewInfo(MatchHeader(l0[0]).value, commonType));
    }
    AssembleSameWalk(l0, l1, false, commonType, WalkWith(false, parse), 0, 0);
  }

  /** Two line sequences with the same header line, and the same walk after
      it, assemble the same outcome. */
  lemma AssembleSameWalk(l0: seq<string>, l1: seq<string>, safe: bool, commonType: string -> string,
                         walk: (seq<string>, ObjectInfo) -> Result<ObjectInfo, ParseError>, h0: nat, h1: nat)
    requires |l0| > 0 && |l1| > 0 && h0 == HeaderIndex(l0, safe) && h1 == HeaderIndex(l1, safe) && l0[h0] == l1[h1]
    requires MatchHeader(l0[h0]).Some? ==>
      walk(l0[h0 + 1..], NewInfo(MatchHeader(l0[h0]).value, commonType)) ==
      walk(l1[h1 + 1..], NewInfo(MatchHeader(l0[h0]).value, commonType))
    ensures Assemble(l0, safe, commonType, walk) == Assemble(l1, safe, commonType, walk)
  {
    AssembleAt(l0, safe, commonType, walk, h0);
    AssembleAt(l1, safe, commonType, walk, h1);
  }

  /** In safe mode an `End Actor` line is an ordinary text line. */
  lemma SafeKeepsEndActor(line: string)
    requires StartsWith(line, END_ACTOR)
    ensures Classify(line, true) == ToText
    ensures Classify(line, false) == StopAtEnd
  {
    RoutesByPrefix(line, true);
    RoutesByPrefix(line, false);
  }
}

=== FILE: actor_splitter.dfy ===
/**
  `parseActors` (udk/udkParser.py:68-88): every `Begin Actor` of a level's
  text starts a block that reaches up to the next `End Actor`; each block is
  parsed in safe mode and the results are listed in the order found.
*/
module ActorSplitter {
  import opened Wrappers
  import opened PyStr
  import opened Records
  import opened ActorParser
  import opened Lines
  import opened Header

  /** The text of the block that starts at `s`: `text[s:eindex]` with
      `eindex = text.find("End Actor", s)`, which is -1 when no `End Actor`
      follows, so that Python's slice then stops one character short of the end. */
  function BlockAt(text: string, s: nat): string {
    PySlice(text, s, Find(text, END_ACTOR, s))
  }

  /** `End Actor` cannot start inside a `Begin Actor`: it begins with `E`,
      which `Begin Actor` does not contain. */
  lemma EndNotInsideBegin(text: string, s: nat)
    requires IsAt(text, BEGIN_ACTOR, s)
    ensures forall q :: s <= q < s + |BEGIN_ACTOR| ==> !IsAt(text, END_ACTOR, q)
  {
    forall q | s <= q < s + |BEGIN_ACTOR|
      ensures !IsAt(text, END_ACTOR, q)
    {
      assert text[q] == text[s..s + |BEGIN_ACTOR|][q - s] == BEGIN_ACTOR[q - s];
      IsAtHead(text, END_ACTOR, q);
    }
  }

  /** `Begin Actor` does not overlap itself: its `B` occurs only first. */
  lemma BeginNoSelfOverlap(text: string, s: nat)
    requires IsAt(text, BEGIN_ACTOR, s)
    ensures forall q :: s < q < s + |BEGIN_ACTOR| ==> !IsAt(text, BEGIN_ACTOR, q)
  {
    forall q | s < q < s + |BEGIN_ACTOR|
      ensures !IsAt(text, BEGIN_ACTOR, q)
    {
      assert text[q] == text[s..s + |BEGIN_ACTOR|][q - s] == BEGIN_ACTOR[q - s];
      IsAtHead(text, BEGIN_ACTOR, q);
    }
  }

  /** The block at a `Begin Actor` at `s` ends just before the first
      `End Actor` after it, so it contains none; when one follows, the block
      starts with `Begin Actor`, and otherwise it runs to one character before
      the end of the text. */
  lemma BlockShape(text: string, s: nat)
    requires IsAt(text, BEGIN_ACTOR, s)
    ensures var e, block := Find(text, END_ACTOR, s), BlockAt(text, s);
      (forall i :: 0 <= i <= |block| - |END_ACTOR| ==> !IsAt(block, END_ACTOR, i)) &&
      (e != -1 ==> s + |BEGIN_ACTOR| <= e && block == text[s..e] && StartsWith(block, BEGIN_ACTOR)) &&
      (e == -1 ==> block == text[s..|text| - 1])
  {
    var e := Find(text, END_ACTOR, s);
    EndNotInsideBegin(text, s);
    var stop := if e == -1 then |text| - 1 else e;
    var block := text[s..stop];
    assert BlockAt(text, s) == block;
    forall i | 0 <= i <= |block| - |END_ACTOR|
      ensures !IsAt(block, END_ACTOR, i)
    {
      OccurrenceInSlice(text, END_ACTOR, s, stop, i);
    }
    if e != -1 {
      assert block[..|BEGIN_ACTOR|] == text[s..s + |BEGIN_ACTOR|];
    }
  }

  /** The results for the blocks starting at `starts`, in order, `f` giving
      the result for one start: the first block whose parse raises gives the
      error. */
  function Collect<T, E>(starts: seq<nat>, f: nat -> Result<T, E>): (r: Result<seq<T>, E>)
    ensures r.Ok? ==>
      |r.value| == |starts| &&
      forall k :: 0 <= k < |starts| ==> f(starts[k]) == Ok(r.value[k])
    ensures r.Err? ==>
      exists k ::
        0 <= k < |starts| && f(starts[k]) == Err(r.error) &&
        forall j :: 0 <= j < k ==> f(starts[j]).Ok?
  {
    if |starts| == 0 then Ok([])
    else
      match f(starts[0])
      case Err(e) => Err(e)
      case Ok(obj) =>
        var rest := Collect(starts[1..], f);
        assert forall j :: 0 < j < |starts| ==> starts[1..][j - 1] == starts[j];
        match rest
        case Err(e) =>
          assert exists k ::
            0 < k < |starts| && f(starts[k]) == Err(e) &&
            forall j :: 1 <= j < k ==> f(starts[j]).Ok?;
          Err(e)
        case Ok(objs) => Ok([obj] + objs)
  }

  /** What `parseActors` makes of the block that starts at `s`. */
  function BlockResult(text: string, commonType: string -> string, parse: string -> Option<real>)
    : nat -> Result<Option<ObjectInfo>, ParseError>
  {
    (s: nat) => ParseActorSpec(BlockAt(text, s), true, commonType, parse)
  }

  /** What `parseActors(text)` returns, with the cursor moved past each
      `Begin Actor` it finds: one result per `Begin Actor` of the text, in
      order, `None` results included. */
  function ParseActorsSpec(text: string, commonType: string -> string, parse: string -> Option<real>)
    : Result<seq<Option<ObjectInfo>>, ParseError>
  {
    Collect(Occurrences(text, BEGIN_ACTOR, 0), BlockResult(text, commonType, parse))
  }

  /** `acc` put in front of a list of results. */
  function Prefixed<T, E>(acc: seq<T>, r: Result<seq<T>, E>): Result<seq<T>, E> {
    match r
    case Err(e) => Err(e)
    case Ok(xs) => Ok(acc + xs)
  }

  /** The rounds of the loop from `cursor` on, `acc` the list so far. */
  function Rounds<T, E>(text: string, cursor: nat, acc: seq<T>, f: nat -> Result<T, E>): Result<seq<T>, E>
    decreases |text| - cursor
  {
    var s := Find(text, BEGIN_ACTOR, cursor);
    if s == -1 then Ok(acc)
    else
      match f(s)
      case Err(e) => Err(e)
      case Ok(obj) => Rounds(text, s + |BEGIN_ACTOR|, acc + [obj], f)
  }

  /** The occurrences from `cursor` when the first of them is at `s`. */
  lemma OccurrencesStep(text: string, cursor: nat, s: nat)
    requires s == Find(text, BEGIN_ACTOR, cursor)
    ensures Occurrences(text, BEGIN_ACTOR, cursor) == [s] + Occurrences(text, BEGIN_ACTOR, s + |BEGIN_ACTOR|)
  {
    BeginNoSelfOverlap(text, s);
    OccurrencesAfterFind(text, BEGIN_ACTOR, cursor, s);
  }

  /** The first block's result comes first, and its error wins. */
  lemma CollectCons<T, E>(s: nat, later: seq<nat>, f: nat -> Result<T, E>)
    ensures f(s).Err? ==> Collect([s] + later, f) == Err(f(s).error)
    ensures f(s).Ok? ==> Collect([s] + later, f) == Prefixed([f(s).value], Collect(later, f))
  {
    assert ([s] + later)[1..] == later;
  }

  lemma PrefixedTwice<T, E>(acc: seq<T>, obj: T, r: Result<seq<T>, E>)
    ensures Prefixed(acc + [obj], r) == Prefixed(acc, Prefixed([obj], r))
  {
    match r
    case Err(e) =>
    case Ok(xs) => assert acc + [obj] + xs == acc + ([obj] + xs);
  }

  /** Moving the cursor past each `Begin Actor` found visits every
      `Begin Actor` of the text once, in order. */
  lemma {:induction false} RoundsVisitOccurrences<T, E>(text: string, cursor: nat, acc: seq<T>, f: nat -> Result<T, E>)
    ensures Rounds(text, cursor, acc, f) == Prefixed(acc, Collect(Occurrences(text, BEGIN_ACTOR, cursor), f))
    decreases |text| - cursor
  {
    var s := Find(text, BEGIN_ACTOR, cursor);
    if s == -1 {
      FindIsFirstOccurrence(text, BEGIN_ACTOR, cursor);
      assert acc + [] == acc;
    } else {
      OccurrencesStep(text, cursor, s);
      var later := Occurrences(text, BEGIN_ACTOR, s + |BEGIN_ACTOR|);
      CollectCons(s, later, f);
      if f(s).Ok? {
        RoundsVisitOccurrences(text, s + |BEGIN_ACTOR|, acc + [f(s).value], f);
        PrefixedTwice(acc, f(s).value, Collect(later, f));
      }
    }
  }

  /** From the start of the text with nothing collected, the rounds give
      what `Collect` gives on every `Begin Actor`. */
  lemma RoundsFromStart<T, E>(text: string, f: nat -> Result<T, E>)
    ensures Rounds(text, 0, [], f) == Collect(Occurrences(text, BEGIN_ACTOR, 0), f)
  {
    RoundsVisitOccurrences(text, 0, [], f);
    var r := Collect(Occurrences(text, BEGIN_ACTOR, 0), f);
    if r.Ok? {
      assert [] + r.value == r.value;
    }
  }

  /** The loop of `parseActors`, `f` giving the result for the block at a
      start: the cursor is moved past each `Begin Actor` found, the first
      error ends the loop, and the results are listed in order. */
  method ScanBlocks<T, E>(text: string, f: nat -> Result<T, E>) returns (r: Result<seq<T>, E>)
    ensures r == Collect(Occurrences(text, BEGIN_ACTOR, 0), f)
  {
    RoundsFromStart(text, f);
    var objList: seq<T> := [];
    var sindex: nat := 0;
    while true
      invariant sindex <= |text|
      invariant Rounds(text, sindex, objList, f) == Collect(Occurrences(text, BEGIN_ACTOR, 0), f)
      decreases |text| - sindex
    {
      var s := Find(text, BEGIN_ACTOR, sindex);
      if s == -1 {
        break;
      }
      var obj := f(s);
      if obj.Err? {
        return Err(obj.error);
      }
      objList := objList + [obj.value];
      sindex := s + |BEGIN_ACTOR|;
    }
    return Ok(objList);
  }

  /** `parseActors`: each block parsed in safe mode. */
  method ParseActors(text: string, commonType: string -> string, parse: string -> Option<real>)
    returns (r: Result<seq<Option<ObjectInfo>>, ParseError>)
    ensures r == ParseActorsSpec(text, commonType, parse)
  {
    r := ScanBlocks(text, BlockResult(text, commonType, parse));
  }

  /** Where the loop as written stands after some rounds: still running with
      the results appended so far, left by the `break` with its list, or
      ended by the exception a block's parse raised. */
  datatype Progress<T, E> = Running(appended: seq<T>) | Broke(list: seq<T>) | Raised(error: E)

  /** The loop as written, `f` giving the result for the block at a start:
      where `n` rounds from `sindex` leave it. The cursor is set to the
      `Begin Actor` found and not moved past it. */
  function AsWrittenRounds<T, E>(text: string, sindex: nat, n: nat, f: nat -> Result<T, E>): Progress<T, E>
    decreases n
  {
    if n == 0 then Running([])
    else
      var s := Find(text, BEGIN_ACTOR, sindex);
      if s == -1 then Broke([])
      else match f(s)
        case Err(e) => Raised(e)
        case Ok(obj) =>
          match AsWrittenRounds(text, s, n - 1, f)
          case Running(rest) => Running([obj] + rest)
          case Broke(rest) => Broke([obj] + rest)
          case Raised(e) => Raised(e)
  }

  lemma {:induction false} AsWrittenStuck<T, E>(text: string, s: nat, n: nat, f: nat -> Result<T, E>)
    requires Find(text, BEGIN_ACTOR, s) == s && f(s).Ok?
    ensures AsWrittenRounds(text, s, n, f).Running?
    ensures |AsWrittenRounds(text, s, n, f).appended| == n
    ensures forall k :: 0 <= k < n ==> AsWrittenRounds(text, s, n, f).appended[k] == f(s).value
    decreases n
  {
    if n > 0 {
      AsWrittenStuck(text, s, n - 1, f);
      var rest := AsWrittenRounds(text, s, n - 1, f).appended;
      assert AsWrittenRounds(text, s, n, f).appended == [f(s).value] + rest;
    }
  }

  /** As written, `sindex` is never moved past the `Begin Actor` it found:
      once the first `Begin Actor` of the text has a block whose parse does
      not raise, no number of rounds reaches the `break`, and every round
      appends that block's result again. */
  lemma AsWrittenNeverBreaks<T, E>(text: string, n: nat, f: nat -> Result<T, E>)
    requires Find(text, BEGIN_ACTOR, 0) != -1 && f(Find(text, BEGIN_ACTOR, 0)).Ok?
    ensures AsWrittenRounds(text, 0, n, f).Running?
    ensures |AsWrittenRounds(text, 0, n, f).appended| == n
    ensures forall k :: 0 <= k < n ==>
      AsWrittenRounds(text, 0, n, f).appended[k] == f(Find(text, BEGIN_ACTOR, 0)).value
  {
    var s := Find(text, BEGIN_ACTOR, 0);
    if n > 0 {
      assert Find(text, BEGIN_ACTOR, s) == s;
      AsWrittenStuck(text, s, n - 1, f);
      var rest := AsWrittenRounds(text, s, n - 1, f).appended;
      assert AsWrittenRounds(text, 0, n, f).appended == [f(s).value] + rest;
    }
  }

  /** As written, a first block whose parse raises ends the loop in the
      first round with that exception; a text without `Begin Actor` leaves
      it by the `break` with the empty list. */
  lemma AsWrittenFirstRound<T, E>(text: string, f: nat -> Result<T, E>)
    ensures var s := Find(text, BEGIN_ACTOR, 0);
      (s == -1 ==> forall n :: n > 0 ==> AsWrittenRounds(text, 0, n, f) == Broke([])) &&
      (s != -1 && f(s).Err? ==> forall n :: n > 0 ==> AsWrittenRounds(text, 0, n, f) == Raised(f(s).error))
  {
  }

  /** A level with one actor block. */
  const ONE_ACTOR: string := "Begin Actor Class=A Name=B \nEnd Actor"

  /** The header line of that block. */
  const ONE_HEADER: string := "Begin Actor Class=A Name=B "

  /** The one block of `ONE_ACTOR` is its header line and a line feed. */
  lemma OneActorBlock()
    ensures BlockAt(ONE_ACTOR, 0) == ONE_HEADER + "\n"
  {
    var t, u := ONE_ACTOR, ONE_HEADER + "\n";
    assert t[28..28 + |END_ACTOR|] == END_ACTOR;
    assert t[..28] == u;
    assert 'E' !in u;
    forall q | 0 <= q < 28
      ensures !IsAt(t, END_ACTOR, q)
    {
      assert t[q] == u[q];
      IsAtHead(t, END_ACTOR, q);
    }
    FindAt(t, END_ACTOR, 0, 28);
  }

  /** `find` from `from` gives the occurrence at `i` when none comes before it. */
  lemma FindAt(t: string, p: string, from: nat, i: nat)
    requires from <= i && IsAt(t, p, i)
    requires forall q :: from <= q < i ==> !IsAt(t, p, q)
    ensures Find(t, p, from) == i
  {
    var e := Find(t, p, from);
    assert e != -1;
    assert !(e > i);
  }

  /** That block splits into its header line and one empty line. */
  lemma OneActorLines()
    ensures SplitLines(ONE_HEADER + "\n") == [ONE_HEADER, ""]
  {
    assert ONE_HEADER + "\n" == ONE_HEADER + "\n" + "";
    SplitAtTrailingBlanks(ONE_HEADER, "");
  }

  /** Its header gives type `A` and name `B`. */
  lemma OneActorHeader()
    ensures MatchHeader(ONE_HEADER) == Some(HeaderMatch(12, "A", "B"))
  {
    assert ONE_HEADER == "Begin Actor " + "Class=" + "A" + " Name=" + "B" + [' '] + "";
    PlainHeaderLine("Begin Actor ", "A", "B", ' ', "");
  }

  /** In safe mode the block parses to the record of `A` named `B` whose
      text block holds the empty line. */
  lemma OneActorParses(commonType: string -> string, parse: string -> Option<real>)
    ensures BlockResult(ONE_ACTOR, commonType, parse)(0) ==
      Ok(Some(ObjectInfo("B", "A", commonType("A"), None, None, None, map[TEXTBLOCK := "\n"])))
  {
    OneActorBlock();
    OneActorLines();
    OneActorHeader();
    var lines := [ONE_HEADER, ""];
    var hm := HeaderMatch(12, "A", "B");
    var base := NewInfo(hm, commonType);
    assert lines[1..] == [""];
    OneEmptyLineWalk(parse, base);
    ParseLinesOfHeader(lines, true, commonType, parse, 0, hm, Walk([""], true, parse, base));
  }

  /** In safe mode a single empty line after the header goes to the text block. */
  lemma OneEmptyLineWalk(parse: string -> Option<real>, base: ObjectInfo)
    ensures Walk([""], true, parse, base) == Ok(base.(attrs := base.attrs[TEXTBLOCK := "\n"]))
  {
    RoutesByPrefix("", true);
    assert WalkEnd([""], true) == 1 && [""][..1] == [""];
    assert FirstRejected([""], true, parse) == None;
    assert TextLines([""], true) == [""];
    assert Pack([""]) == "\n";
  }

  /** On a level with one actor, the loop as written appends that actor's
      record in every round and never stops. */
  lemma AsWrittenLoopsOnOneActor(n: nat, commonType: string -> string, parse: string -> Option<real>)
    ensures var f := BlockResult(ONE_ACTOR, commonType, parse);
      var info := ObjectInfo("B", "A", commonType("A"), None, None, None, map[TEXTBLOCK := "\n"]);
      AsWrittenRounds(ONE_ACTOR, 0, n, f).Running? &&
      |AsWrittenRounds(ONE_ACTOR, 0, n, f).appended| == n &&
      forall k :: 0 <= k < n ==> AsWrittenRounds(ONE_ACTOR, 0, n, f).appended[k] == Some(info)
  {
    assert ONE_ACTOR[0..|BEGIN_ACTOR|] == BEGIN_ACTOR;
    assert Find(ONE_ACTOR, BEGIN_ACTOR, 0) == 0;
    OneActorParses(commonType, parse);
    AsWrittenNeverBreaks(ONE_ACTOR, n, BlockResult(ONE_ACTOR, commonType, parse));
  }

  /** A text without `Begin Actor` holds no actors. */
  lemma NoBeginNoActors(text: string, commonType: string -> string, parse: string -> Option<real>)
    requires forall i :: !IsAt(text, BEGIN_ACTOR, i)
    ensures ParseActorsSpec(text, commonType, parse) == Ok([])
  {
    FindIsFirstOccurrence(text, BEGIN_ACTOR, 0);
  }

  /** Every `Begin Actor` of the text gives one entry, in order, which is the
      result of parsing its block in safe mode. */
  lemma OneEntryPerBegin(text: string, commonType: string -> string, parse: string -> Option<real>)
    requires ParseActorsSpec(text, commonType, parse).Ok?
    ensures var objs, starts := ParseActorsSpec(text, commonType, parse).value, Occurrences(text, BEGIN_ACTOR, 0);
      |objs| == |starts| &&
      (forall i :: IsAt(text, BEGIN_ACTOR, i) ==> i in starts) &&
      (forall j, k :: 0 <= j < k < |starts| ==> starts[j] < starts[k]) &&
      forall k :: 0 <= k < |starts| ==>
        IsAt(text, BEGIN_ACTOR, starts[k]) &&
        ParseActorSpec(BlockAt(text, starts[k]), true, commonType, parse) == Ok(objs[k])
  {
    var f := BlockResult(text, commonType, parse);
    var starts := Occurrences(text, BEGIN_ACTOR, 0);
    OccurrencesComplete(text, BEGIN_ACTOR, 0);
    OccurrencesIncreasing(text, BEGIN_ACTOR, 0);
    forall k | 0 <= k < |starts|
      ensures ParseActorSpec(BlockAt(text, starts[k]), true, commonType, parse) == f(starts[k])
    {
    }
  }
}

=== FILE: header.dfy ===
/**
  The header pattern `Class=(.+?) Name=(.+?)\s+` of udk/udkParser.py, searched
  in the header line of an actor block.
*/
module Header {
  import opened Wrappers
  import opened PyStr
  import opened LazyMatch

  /** `Class=(.+?) Name=(.+?)\s`; the trailing `+` of `\s+` changes neither
      whether the search succeeds nor what the groups capture. */
  const HEADER: seq<Elem> := [
    Lit('C'), Lit('l'), Lit('a'), Lit('s'), Lit('s'), Lit('='),    // 0..5
    AnyRun,                                                        // 6: group 1
    Lit(' '), Lit('N'), Lit('a'), Lit('m'), Lit('e'), Lit('='),    // 7..12
    AnyRun,                                                        // 13: group 2
    Blank                                                          // 14
  ]

  /** The identity read from a header: where the match starts, group 1 (the
      internal type) and group 2 (the name). */
  datatype HeaderMatch = HeaderMatch(start: nat, typeInternal: string, name: string)

  /** The pattern matches at `i` with group 1 = `ty` and group 2 = `nm`:
      `line[i..]` reads `Class=` ty ` Name=` nm and then a whitespace character. */
  predicate HeaderAt(line: string, i: nat, ty: string, nm: string) {
    var a := i + 6 + |ty|;
    var b := a + 6 + |nm|;
    |ty| > 0 && |nm| > 0 && NoNewline(ty) && NoNewline(nm) && b < |line| &&
    IsAt(line, "Class=", i) && line[i + 6..a] == ty &&
    IsAt(line, " Name=", a) && line[a + 6..b] == nm &&
    IsWhitespace(line[b])
  }

  /** `(i, ty, nm)` is the candidate `re.search` prefers over `(i', ty', nm')`:
      leftmost start, then shortest group 1, then shortest group 2. */
  predicate Prefers(i: nat, ty: string, nm: string, i': nat, ty': string, nm': string) {
    i < i' || (i == i' && (|ty| < |ty'| || (|ty| == |ty'| && |nm| <= |nm'|)))
  }

  /** The element ends of the match at `i` with groups of lengths `lt` and `ln`. */
  function HeaderEnds(i: nat, lt: nat, ln: nat): (e: seq<nat>)
    ensures |e| == |HEADER|
  {
    var a := i + 6 + lt;
    var b := a + 6 + ln;
    [i + 1, i + 2, i + 3, i + 4, i + 5, i + 6, a, a + 1, a + 2, a + 3, a + 4, a + 5, a + 6, b, b + 1]
  }

  lemma HeaderAtIsMatch(line: string, i: nat, ty: string, nm: string)
    requires HeaderAt(line, i, ty, nm)
    ensures IsMatch(line, HEADER, Match(i, HeaderEnds(i, |ty|, |nm|)))
  {
    var a := i + 6 + |ty|;
    var b := a + 6 + |nm|;
    var e := HeaderEnds(i, |ty|, |nm|);
    forall j | 0 <= j < |e|
      ensures ElemSpan(line, HEADER[j], PrevEnd(i, e, j), e[j])
    {
      if j < 6 {
        assert line[i..i + 6][j] == "Class="[j];
      } else if j == 6 {
        forall q | i + 6 <= q < a ensures line[q] != '\n' {
          assert line[i + 6..a][q - (i + 6)] == ty[q - (i + 6)];
        }
      } else if j < 13 {
        assert line[a..a + 6][j - 7] == " Name="[j - 7];
      } else if j == 13 {
        forall q | a + 6 <= q < b ensures line[q] != '\n' {
          assert line[a + 6..b][q - (a + 6)] == nm[q - (a + 6)];
        }
      }
    }
  }

  lemma MatchIsHeaderAt(line: string, m: Match)
    requires IsMatch(line, HEADER, m)
    ensures m.ends[5] < m.ends[6] <= m.ends[12] < m.ends[13] <= |line|
    ensures var ty := line[m.ends[5]..m.ends[6]];
            var nm := line[m.ends[12]..m.ends[13]];
            HeaderAt(line, m.start, ty, nm) && m.ends == HeaderEnds(m.start, |ty|, |nm|)
  {
    var i, e := m.start, m.ends;
    LiteralRun(line, HEADER, m, 0, "Class=");
    AnyRunOfMatch(line, HEADER, m, 6);
    LiteralRun(line, HEADER, m, 7, " Name=");
    AnyRunOfMatch(line, HEADER, m, 13);
    ElemOfMatch(line, HEADER, m, 14);
    var ty := line[e[5]..e[6]];
    var nm := line[e[12]..e[13]];
    assert e == HeaderEnds(i, |ty|, |nm|);
  }

  /** Python's `re.search(HEADER, line)`, reduced to its start and two groups. */
  function MatchHeader(line: string): (r: Option<HeaderMatch>)
    ensures r.Some? ==> HeaderAt(line, r.value.start, r.value.typeInternal, r.value.name)
  {
    match Search(line, HEADER)
    case None => None
    case Some(m) =>
      MatchIsHeaderAt(line, m);
      Some(HeaderMatch(m.start, Group(line, HEADER, m, 6), Group(line, HEADER, m, 13)))
  }

  lemma HeaderEndsOrder(i: nat, lt: nat, ln: nat, lt': nat, ln': nat)
    requires LexLe(HeaderEnds(i, lt, ln), HeaderEnds(i, lt', ln'))
    ensures lt < lt' || (lt == lt' && ln <= ln')
  {
    var e, e' := HeaderEnds(i, lt, ln), HeaderEnds(i, lt', ln');
    if e != e' {
      var n :| 0 <= n < |e| && n < |e'| && e[..n] == e'[..n] && e[n] < e'[n];
      if n > 6 {
        assert e[..n][6] == e'[..n][6];
      }
    }
  }

  /** Leftmost and lazy: for every way the pattern can match `line`, the
      search succeeds, and what it reports is the preferred candidate. */
  lemma {:induction false} HeaderLeftmostLazy(line: string, i: nat, ty: string, nm: string)
    requires HeaderAt(line, i, ty, nm)
    ensures MatchHeader(line).Some?
    ensures var h := MatchHeader(line).value; Prefers(h.start, h.typeInternal, h.name, i, ty, nm)
  {
    HeaderAtIsMatch(line, i, ty, nm);
    SearchLeast(line, HEADER);
    var m := Search(line, HEADER).value;
    MatchIsHeaderAt(line, m);
    var h := MatchHeader(line).value;
    assert Precedes(m, Match(i, HeaderEnds(i, |ty|, |nm|)));
    if m.start == i {
      HeaderEndsOrder(i, |h.typeInternal|, |h.name|, |ty|, |nm|);
    }
  }

  /** The search fails exactly when no candidate exists. */
  lemma HeaderNoneIffNoCandidate(line: string)
    ensures MatchHeader(line).None? <==> forall i: nat, ty, nm :: !HeaderAt(line, i, ty, nm)
  {
    if MatchHeader(line).None? {
      forall i: nat, ty, nm | HeaderAt(line, i, ty, nm) ensures false {
        HeaderLeftmostLazy(line, i, ty, nm);
      }
    }
  }

  /** The name stops at its first whitespace after the first character. */
  lemma NameStopsAtFirstBlank(line: string)
    requires MatchHeader(line).Some?
    ensures var h := MatchHeader(line).value;
      forall q :: 0 < q < |h.name| ==> !IsWhitespace(h.name[q])
  {
    var h := MatchHeader(line).value;
    forall q | 0 < q < |h.name| ensures !IsWhitespace(h.name[q]) {
      if IsWhitespace(h.name[q]) {
        var nm := h.name[..q];
        var a := h.start + 6 + |h.typeInternal|;
        assert line[a + 6..a + 6 + q] == nm;
        assert HeaderAt(line, h.start, h.typeInternal, nm);
        HeaderLeftmostLazy(line, h.start, h.typeInternal, nm);
      }
    }
  }

  /** A candidate with no `C` before it, no space in its type and no
      whitespace in its name is the one the search reports. */
  lemma {:induction false} HeaderPinned(line: string, i: nat, ty: string, nm: string)
    requires HeaderAt(line, i, ty, nm)
    requires forall q :: 0 <= q < i ==> line[q] != 'C'
    requires forall q :: 0 <= q < |ty| ==> ty[q] != ' '
    requires forall q :: 0 <= q < |nm| ==> !IsWhitespace(nm[q])
    ensures MatchHeader(line) == Some(HeaderMatch(i, ty, nm))
  {
    HeaderLeftmostLazy(line, i, ty, nm);
    var h := MatchHeader(line).value;
    assert line[h.start..h.start + 6][0] == line[h.start];
    assert h.start == i;
    var a := i + 6 + |ty|;
    var a' := i + 6 + |h.typeInternal|;
    assert line[a'..a' + 6][0] == line[a'];
    assert |h.typeInternal| == |ty|;
    var b := a + 6 + |nm|;
    forall q | a + 6 <= q < b ensures !IsWhitespace(line[q]) {
      assert line[a + 6..b][q - (a + 6)] == line[q];
    }
    assert |h.name| == |nm|;
  }

  /** A header line of the usual shape: no `C` before `Class=`, no space in
      the type, no whitespace in the name, and whitespace after the name. */
  lemma PlainHeaderLine(prefix: string, ty: string, nm: string, w: char, rest: string)
    requires forall q :: 0 <= q < |prefix| ==> prefix[q] != 'C'
    requires |ty| > 0 && forall q :: 0 <= q < |ty| ==> ty[q] != ' ' && ty[q] != '\n'
    requires |nm| > 0 && forall q :: 0 <= q < |nm| ==> !IsWhitespace(nm[q])
    requires IsWhitespace(w)
    ensures MatchHeader(prefix + "Class=" + ty + " Name=" + nm + [w] + rest)
         == Some(HeaderMatch(|prefix|, ty, nm))
  {
    var line := prefix + "Class=" + ty + " Name=" + nm + [w] + rest;
    var i := |prefix|;
    var a := i + 6 + |ty|;
    var b := a + 6 + |nm|;
    assert line[i..i + 6] == "Class=";
    assert line[i + 6..a] == ty;
    assert line[a..a + 6] == " Name=";
    assert line[a + 6..b] == nm;
    assert line[b] == w;
    assert line[..i] == prefix;
    HeaderPinned(line, i, ty, nm);
  }

  /** `Begin Actor Class=Foo Name=Bar Archetype=X` gives type `Foo` and name `Bar`. */
  lemma HeaderExample()
    ensures MatchHeader("Begin Actor Class=Foo Name=Bar Archetype=X") == Some(HeaderMatch(12, "Foo", "Bar"))
  {
    assert "Begin Actor Class=Foo Name=Bar Archetype=X" == "Begin Actor " + "Class=" + "Foo" + " Name=" + "Bar" + [' '] + "Archetype=X";
    PlainHeaderLine("Begin Actor ", "Foo", "Bar", ' ', "Archetype=X");
  }

  /** A header that ends right after the name has no whitespace to stop the
      name, so the search fails. */
  lemma HeaderWithoutTrailingBlankFails()
    ensures MatchHeader("Begin Actor Class=Foo Name=Bar") == None
  {
    HeaderNoneIffNoCandidate("Begin Actor Class=Foo Name=Bar");
    forall i: nat, ty, nm ensures !HeaderAt("Begin Actor Class=Foo Name=Bar", i, ty, nm) {
      NoCandidateInBareHeader(i, ty, nm);
    }
  }

  lemma NoCandidateInBareHeader(i: nat, ty: string, nm: string)
    ensures !HeaderAt("Begin Actor Class=Foo Name=Bar", i, ty, nm)
  {
    IsAtHead("Begin Actor Class=Foo Name=Bar", "Class=", i);
  }
}

=== FILE: lazy_match.dfy ===
/**
  A scanner for the two fixed regular expressions of the parser. Both are
  sequences of three kinds of element: a literal character, `.+?` (one or
  more characters other than a line feed, as few as possible) and `\s`.
  Python's `re.search` returns the match with the leftmost start and, among
  those, the one its backtracking reaches first; with only lazy repetitions
  that is the match whose element end positions are lexicographically least.
*/
module LazyMatch {
  import opened Wrappers
  import opened PyStr

  datatype Elem =
    | Lit(c: char)  // the character `c`
    | AnyRun        // `.+?`
    | Blank         // `\s`

  /** Element `e` matches exactly `t[from..to]`. */
  predicate ElemSpan(t: string, e: Elem, from: nat, to: nat) {
    from < to <= |t| &&
    match e
    case Lit(c) => to == from + 1 && t[from] == c
    case Blank => to == from + 1 && IsWhitespace(t[from])
    case AnyRun => forall q :: from <= q < to ==> t[q] != '\n'
  }

  /** Where element `j` of a match starts: the end of element `j - 1`, or `pos`. */
  function PrevEnd(pos: nat, ends: seq<nat>, j: nat): nat
    requires j <= |ends|
  {
    if j == 0 then pos else ends[j - 1]
  }

  /** The elements `p[k..]` match consecutive pieces of `t`, the first starting
      at `pos`; element `p[k + j]` ends at `ends[j]`. */
  predicate MatchesAt(t: string, p: seq<Elem>, k: nat, pos: nat, ends: seq<nat>) {
    k <= |p| && |ends| == |p| - k &&
    forall j {:trigger PrevEnd(pos, ends, j)} :: 0 <= j < |ends| ==> ElemSpan(t, p[k + j], PrevEnd(pos, ends, j), ends[j])
  }

  /** Lexicographic order on equally long sequences of positions. */
  predicate LexLe(a: seq<nat>, b: seq<nat>) {
    a == b || exists n :: 0 <= n < |a| && n < |b| && a[..n] == b[..n] && a[n] < b[n]
  }

  /** A match of a whole pattern: where it starts and where each element ends. */
  datatype Match = Match(start: nat, ends: seq<nat>)

  predicate IsMatch(t: string, p: seq<Elem>, m: Match) {
    m.start <= |t| && MatchesAt(t, p, 0, m.start, m.ends)
  }

  /** `m1` is the one `re.search` prefers: it starts earlier, or starts at the
      same place with lexicographically smaller element ends. */
  predicate Precedes(m1: Match, m2: Match) {
    m1.start < m2.start || (m1.start == m2.start && LexLe(m1.ends, m2.ends))
  }

  /** The text captured by element `k` of a match. */
  function Group(t: string, p: seq<Elem>, m: Match, k: nat): string
    requires IsMatch(t, p, m) && k < |p|
  {
    assert ElemSpan(t, p[0 + k], PrevEnd(m.start, m.ends, k), m.ends[k]);
    t[PrevEnd(m.start, m.ends, k)..m.ends[k]]
  }

  lemma PrevEndShift(pos: nat, x: nat, r: seq<nat>, j: nat)
    requires j < |r|
    ensures PrevEnd(pos, [x] + r, j + 1) == PrevEnd(x, r, j) && ([x] + r)[j + 1] == r[j]
  {
  }

  lemma MatchesAtConsLeft(t: string, p: seq<Elem>, k: nat, pos: nat, x: nat, r: seq<nat>)
    requires k < |p| && MatchesAt(t, p, k, pos, [x] + r)
    ensures ElemSpan(t, p[k], pos, x) && MatchesAt(t, p, k + 1, x, r)
  {
    var e := [x] + r;
    assert ElemSpan(t, p[k + 0], PrevEnd(pos, e, 0), e[0]);
    forall j | 0 <= j < |r|
      ensures ElemSpan(t, p[k + 1 + j], PrevEnd(x, r, j), r[j])
    {
      PrevEndShift(pos, x, r, j);
      assert ElemSpan(t, p[k + (j + 1)], PrevEnd(pos, e, j + 1), e[j + 1]);
    }
  }

  lemma MatchesAtConsRight(t: string, p: seq<Elem>, k: nat, pos: nat, x: nat, r: seq<nat>)
    requires k < |p| && ElemSpan(t, p[k], pos, x) && MatchesAt(t, p, k + 1, x, r)
    ensures MatchesAt(t, p, k, pos, [x] + r)
  {
    var e := [x] + r;
    forall j | 0 <= j < |e|
      ensures ElemSpan(t, p[k + j], PrevEnd(pos, e, j), e[j])
    {
      if j > 0 {
        PrevEndShift(pos, x, r, j - 1);
        assert ElemSpan(t, p[k + 1 + (j - 1)], PrevEnd(x, r, j - 1), r[j - 1]);
      }
    }
  }

  lemma MatchesAtCons(t: string, p: seq<Elem>, k: nat, pos: nat, x: nat, r: seq<nat>)
    requires k < |p|
    ensures MatchesAt(t, p, k, pos, [x] + r) <==> ElemSpan(t, p[k], pos, x) && MatchesAt(t, p, k + 1, x, r)
  {
    if MatchesAt(t, p, k, pos, [x] + r) {
      MatchesAtConsLeft(t, p, k, pos, x, r);
    }
    if ElemSpan(t, p[k], pos, x) && MatchesAt(t, p, k + 1, x, r) {
      MatchesAtConsRight(t, p, k, pos, x, r);
    }
  }

  /** Every match of `p[k..]` at `pos`, split into its first element and the rest. */
  lemma MatchesAtSplit(t: string, p: seq<Elem>, k: nat, pos: nat, e: seq<nat>)
    requires k < |p| && MatchesAt(t, p, k, pos, e)
    ensures |e| > 0 && ElemSpan(t, p[k], pos, e[0]) && MatchesAt(t, p, k + 1, e[0], e[1..])
  {
    assert e == [e[0]] + e[1..];
    MatchesAtCons(t, p, k, pos, e[0], e[1..]);
  }

  lemma LexLeCons(x: nat, r: seq<nat>, e: seq<nat>)
    requires |e| == |r| + 1 && x <= e[0]
    requires x == e[0] ==> LexLe(r, e[1..])
    ensures LexLe([x] + r, e)
  {
    var a := [x] + r;
    if x < e[0] {
      assert 0 < |a| && a[..0] == e[..0] && a[0] < e[0];
    } else if r != e[1..] {
      var n :| 0 <= n < |r| && n < |e[1..]| && r[..n] == e[1..][..n] && r[n] < e[1..][n];
      assert a[..n + 1] == [x] + r[..n] && e[..n + 1] == [e[0]] + e[1..][..n];
      assert n + 1 < |a| && a[..n + 1] == e[..n + 1] && a[n + 1] < e[n + 1];
    } else {
      assert a == e;
    }
  }

  /** Element `j` of a match occupies `t[PrevEnd(..)..ends[j]]`. */
  lemma ElemOfMatch(t: string, p: seq<Elem>, m: Match, j: nat)
    requires IsMatch(t, p, m) && j < |p|
    ensures ElemSpan(t, p[j], PrevEnd(m.start, m.ends, j), m.ends[j])
  {
    assert ElemSpan(t, p[0 + j], PrevEnd(m.start, m.ends, j), m.ends[j]);
  }

  /** A run of literal elements `p[k..k + |s|]` spelling `s` matches `s` itself. */
  lemma {:induction false} LiteralRun(t: string, p: seq<Elem>, m: Match, k: nat, s: string)
    requires IsMatch(t, p, m) && k + |s| <= |p|
    requires forall j :: 0 <= j < |s| ==> p[k + j] == Lit(s[j])
    ensures forall j :: k <= j < k + |s| ==> m.ends[j] == PrevEnd(m.start, m.ends, k) + (j - k) + 1
    ensures IsAt(t, s, PrevEnd(m.start, m.ends, k))
    decreases |s|
  {
    var from := PrevEnd(m.start, m.ends, k);
    if |s| > 0 {
      var n := |s| - 1;
      LiteralRun(t, p, m, k, s[..n]);
      var here := PrevEnd(m.start, m.ends, k + n);
      assert here == from + n by {
        if n > 0 {
          assert m.ends[k + n - 1] == from + (k + n - 1 - k) + 1;
        }
      }
      ElemOfMatch(t, p, m, k + n);
      assert p[k + n] == Lit(s[n]);
      assert m.ends[k + n] == here + 1 && t[here] == s[n];
      assert t[from..from + |s|] == t[from..from + n] + [t[from + n]];
      assert s == s[..n] + [s[n]];
    } else if k > 0 {
      ElemOfMatch(t, p, m, k - 1);
    }
  }

  /** A `.+?` element captures a non-empty piece without a line feed. */
  lemma AnyRunOfMatch(t: string, p: seq<Elem>, m: Match, k: nat)
    requires IsMatch(t, p, m) && k < |p| && p[k] == AnyRun
    ensures PrevEnd(m.start, m.ends, k) < m.ends[k] <= |t|
    ensures NoNewline(t[PrevEnd(m.start, m.ends, k)..m.ends[k]])
  {
    ElemOfMatch(t, p, m, k);
  }

  /** The lazy scan of `p[k..]` from `pos`. */
  function MatchFrom(t: string, p: seq<Elem>, k: nat, pos: nat): (r: Option<seq<nat>>)
    requires k <= |p|
    ensures r.Some? ==> MatchesAt(t, p, k, pos, r.value)
    decreases |p| - k, 1, 0
  {
    if k == |p| then Some([])
    else if p[k] == AnyRun then
      if pos < |t| && t[pos] != '\n' then WildFrom(t, p, k, pos, pos + 1) else None
    else if ElemSpan(t, p[k], pos, pos + 1) then
      match MatchFrom(t, p, k + 1, pos + 1)
      case Some(r) => MatchesAtCons(t, p, k, pos, pos + 1, r); Some([pos + 1] + r)
      case None => None
    else None
  }

  /** The lazy scan when the `.+?` at `p[k]` has grown to `t[start..end]`:
      try the rest of the pattern from `end`, else take one more character. */
  function WildFrom(t: string, p: seq<Elem>, k: nat, start: nat, end: nat): (r: Option<seq<nat>>)
    requires k < |p| && p[k] == AnyRun && ElemSpan(t, AnyRun, start, end)
    ensures r.Some? ==> MatchesAt(t, p, k, start, r.value) && r.value[0] >= end
    decreases |p| - k, 0, |t| - end
  {
    match MatchFrom(t, p, k + 1, end)
    case Some(r) => MatchesAtCons(t, p, k, start, end, r); Some([end] + r)
    case None =>
      if end < |t| && t[end] != '\n' then
        assert ElemSpan(t, AnyRun, start, end + 1);
        WildFrom(t, p, k, start, end + 1)
      else None
  }

  /** `re.search`: try every start position from `s` on. */
  function SearchFrom(t: string, p: seq<Elem>, s: nat): (r: Option<Match>)
    requires s <= |t|
    ensures r.Some? ==> IsMatch(t, p, r.value) && r.value.start >= s
    decreases |t| - s
  {
    match MatchFrom(t, p, 0, s)
    case Some(ends) => Some(Match(s, ends))
    case None => if s < |t| then SearchFrom(t, p, s + 1) else None
  }

  function Search(t: string, p: seq<Elem>): (r: Option<Match>)
    ensures r.Some? ==> IsMatch(t, p, r.value)
  {
    SearchFrom(t, p, 0)
  }

  lemma {:induction false} MatchFromLeast(t: string, p: seq<Elem>, k: nat, pos: nat)
    requires k <= |p|
    ensures MatchFrom(t, p, k, pos).Some? ==>
      forall e :: MatchesAt(t, p, k, pos, e) ==> LexLe(MatchFrom(t, p, k, pos).value, e)
    ensures MatchFrom(t, p, k, pos).None? ==> forall e :: !MatchesAt(t, p, k, pos, e)
    decreases |p| - k, 1, 0
  {
    if k == |p| {
      forall e | MatchesAt(t, p, k, pos, e) ensures LexLe([], e) {
        assert e == [];
      }
    } else {
      forall e | MatchesAt(t, p, k, pos, e)
        ensures ElemSpan(t, p[k], pos, e[0]) && MatchesAt(t, p, k + 1, e[0], e[1..])
      {
        MatchesAtSplit(t, p, k, pos, e);
      }
      if p[k] == AnyRun {
        if pos < |t| && t[pos] != '\n' {
          WildFromLeast(t, p, k, pos, pos + 1);
        }
      } else if ElemSpan(t, p[k], pos, pos + 1) {
        MatchFromLeast(t, p, k + 1, pos + 1);
        if MatchFrom(t, p, k + 1, pos + 1).Some? {
          var r := MatchFrom(t, p, k + 1, pos + 1).value;
          forall e | MatchesAt(t, p, k, pos, e) ensures LexLe([pos + 1] + r, e) {
            LexLeCons(pos + 1, r, e);
          }
        }
      }
    }
  }

  lemma {:induction false} WildFromLeast(t: string, p: seq<Elem>, k: nat, start: nat, end: nat)
    requires k < |p| && p[k] == AnyRun && ElemSpan(t, AnyRun, start, end)
    ensures WildFrom(t, p, k, start, end).Some? ==>
      forall e :: MatchesAt(t, p, k, start, e) && e[0] >= end ==> LexLe(WildFrom(t, p, k, start, end).value, e)
    ensures WildFrom(t, p, k, start, end).None? ==>
      forall e :: MatchesAt(t, p, k, start, e) ==> e[0] < end
    decreases |p| - k, 0, |t| - end
  {
    forall e | MatchesAt(t, p, k, start, e)
      ensures ElemSpan(t, AnyRun, start, e[0]) && MatchesAt(t, p, k + 1, e[0], e[1..])
    {
      MatchesAtSplit(t, p, k, start, e);
    }
    MatchFromLeast(t, p, k + 1, end);
    if MatchFrom(t, p, k + 1, end).Some? {
      var r := MatchFrom(t, p, k + 1, end).value;
      forall e | MatchesAt(t, p, k, start, e) && e[0] >= end ensures LexLe([end] + r, e) {
        LexLeCons(end, r, e);
      }
    } else if end < |t| && t[end] != '\n' {
      assert ElemSpan(t, AnyRun, start, end + 1);
      WildFromLeast(t, p, k, start, end + 1);
    } else {
      forall e | MatchesAt(t, p, k, start, e) ensures e[0] < end {
      }
    }
  }

  lemma {:induction false} SearchFromLeast(t: string, p: seq<Elem>, s: nat)
    requires s <= |t|
    ensures SearchFrom(t, p, s).Some? ==>
      forall m :: IsMatch(t, p, m) && m.start >= s ==> Precedes(SearchFrom(t, p, s).value, m)
    ensures SearchFrom(t, p, s).None? ==> forall m :: IsMatch(t, p, m) ==> m.start < s
    decreases |t| - s
  {
    MatchFromLeast(t, p, 0, s);
    if MatchFrom(t, p, 0, s).None? && s < |t| {
      SearchFromLeast(t, p, s + 1);
    }
  }

  /** `re.search` finds a match exactly when one exists, and the one it finds
      precedes every other. */
  lemma SearchLeast(t: string, p: seq<Elem>)
    ensures Search(t, p).Some? ==> forall m :: IsMatch(t, p, m) ==> Precedes(Search(t, p).value, m)
    ensures Search(t, p).None? ==> forall m :: !IsMatch(t, p, m)
  {
    SearchFromLeast(t, p, 0);
  }

  /** Every `.+?` of `m` is followed by a literal character that does not
      occur in what it captured. */
  predicate Tight(t: string, p: seq<Elem>, m: Match) {
    IsMatch(t, p, m) &&
    forall k :: 0 <= k < |p| && p[k] == AnyRun ==>
      k + 1 < |p| && p[k + 1].Lit? &&
      forall q :: PrevEnd(m.start, m.ends, k) <= q < m.ends[k] ==> t[q] != p[k + 1].c
  }

  /** Sequences that agree on their first `j` elements agree on each of them. */
  lemma SamePrefixIndex(a: seq<nat>, b: seq<nat>, j: nat, n: nat)
    ensures n < j <= |a| && j <= |b| && a[..j] == b[..j] ==> a[n] == b[n]
  {
    if n < j <= |a| && j <= |b| && a[..j] == b[..j] {
      assert a[..j][n] == b[..j][n];
    }
  }

  /** Below in the order and equal up to `j`, so not above at `j`. */
  lemma LexLeAt(a: seq<nat>, b: seq<nat>, j: nat)
    requires LexLe(a, b) && |a| == |b| && j < |a| && a[..j] == b[..j]
    ensures a[j] <= b[j]
  {
    if a != b {
      var n :| 0 <= n < |a| && n < |b| && a[..n] == b[..n] && a[n] < b[n];
      SamePrefixIndex(a, b, j, n);
      if n != j {
        assert a[..n][j] == b[..n][j];
      }
    }
  }

  /** A match at the start of a tight match and not above it in the order
      agrees with it on the first `k` element ends. */
  lemma {:induction false} TightPrefix(t: string, p: seq<Elem>, m: Match, c: Match, k: nat)
    requires Tight(t, p, c) && IsMatch(t, p, m)
    requires m.start == c.start && LexLe(m.ends, c.ends)
    requires k <= |p|
    ensures m.ends[..k] == c.ends[..k]
    decreases k
  {
    if k > 0 {
      var j := k - 1;
      TightPrefix(t, p, m, c, j);
      LexLeAt(m.ends, c.ends, j);
      assert PrevEnd(m.start, m.ends, j) == PrevEnd(c.start, c.ends, j) by {
        if j > 0 {
          assert m.ends[..j][j - 1] == c.ends[..j][j - 1];
        }
      }
      ElemOfMatch(t, p, m, j);
      ElemOfMatch(t, p, c, j);
      if p[j] == AnyRun {
        ElemOfMatch(t, p, m, j + 1);
      }
      assert m.ends[j] == c.ends[j];
      assert m.ends[..k] == m.ends[..j] + [m.ends[j]];
      assert c.ends[..k] == c.ends[..j] + [c.ends[j]];
    }
  }

  /** No match at the same start is lexicographically below a tight match
      unless it is that match. */
  lemma TightIsLeast(t: string, p: seq<Elem>, m: Match, c: Match)
    requires Tight(t, p, c) && IsMatch(t, p, m)
    requires m.start == c.start && LexLe(m.ends, c.ends)
    ensures m == c
  {
    TightPrefix(t, p, m, c, |p|);
    assert m.ends == m.ends[..|p|];
    assert c.ends == c.ends[..|p|];
  }
}

=== FILE: lines.dfy ===
/**
  `re.split("\n+\s*", text)` (udk/udkParser.py:110-111): the text is cut at
  every run of whitespace that begins with a line feed, which also strips the
  leading whitespace of every line after the first.
*/
module Lines {
  import opened PyStr

  /** The first index of `c` in `t`, or -1. */
  function IndexOfChar(t: string, c: char): (r: int)
    ensures r == -1 ==> forall q :: 0 <= q < |t| ==> t[q] != c
    ensures r != -1 ==> 0 <= r < |t| && t[r] == c && forall q :: 0 <= q < r ==> t[q] != c
  {
    if |t| == 0 then -1
    else if t[0] == c then 0
    else var r := IndexOfChar(t[1..], c); if r == -1 then -1 else r + 1
  }

  /** The end of the whitespace run that starts at `i`. */
  function SkipBlank(t: string, i: nat): (j: nat)
    requires i <= |t|
    ensures i <= j <= |t|
    ensures forall q :: i <= q < j ==> IsWhitespace(t[q])
    ensures j < |t| ==> !IsWhitespace(t[j])
    decreases |t| - i
  {
    if i < |t| && IsWhitespace(t[i]) then SkipBlank(t, i + 1) else i
  }

  /** The pieces `re.split("\n+\s*", t)` returns. The separator is greedy, so
      a match that starts at a line feed takes the whole whitespace run. */
  function SplitLines(t: string): (r: seq<string>)
    ensures |r| >= 1
    ensures forall k :: 0 <= k < |r| ==> NoNewline(r[k])
    ensures StartsWith(t, r[0]) && (|r| > 1 ==> |r[0]| < |t| && t[|r[0]|] == '\n')
    ensures |r| == 1 <==> NoNewline(t)
    ensures |r| == 1 ==> r[0] == t
    ensures forall k :: 0 < k < |r| && |r[k]| > 0 ==> !IsWhitespace(r[k][0])
    ensures forall k :: 0 < k < |r| - 1 ==> |r[k]| > 0
    decreases |t|
  {
    var i := IndexOfChar(t, '\n');
    if i == -1 then [t]
    else
      var j := SkipBlank(t, i);
      var rest := SplitLines(t[j..]);
      assert rest[0] == t[j..][..|rest[0]|];
      [t[..i]] + rest
  }

  /** The lines joined by single line feeds. */
  function Join(ls: seq<string>): string
    requires |ls| > 0
  {
    if |ls| == 1 then ls[0] else ls[0] + "\n" + Join(ls[1..])
  }

  lemma {:induction false} JoinStartsWith(ls: seq<string>)
    requires |ls| > 0
    ensures StartsWith(Join(ls), ls[0])
    ensures |ls| > 1 ==> |ls[0]| < |Join(ls)| && Join(ls)[|ls[0]|] == '\n'
  {
    if |ls| > 1 {
      assert Join(ls) == ls[0] + "\n" + Join(ls[1..]);
      assert (ls[0] + "\n" + Join(ls[1..]))[..|ls[0]|] == ls[0];
    }
  }

  /** Joining one more line appends a line feed and that line. */
  lemma {:induction false} JoinSnoc(xs: seq<string>, l: string)
    requires |xs| > 0
    ensures Join(xs + [l]) == Join(xs) + "\n" + l
    decreases |xs|
  {
    if |xs| > 1 {
      assert (xs + [l])[1..] == xs[1..] + [l];
      JoinSnoc(xs[1..], l);
    } else {
      assert (xs + [l])[1..] == [l];
    }
  }

  /** Lines that splitting can give back: no line feed anywhere, every line
      after the first that is not empty starting with a non-blank, and only
      the first and the last line possibly empty. */
  predicate Splittable(ls: seq<string>) {
    |ls| > 0 &&
    (forall k :: 0 <= k < |ls| ==> NoNewline(ls[k])) &&
    (forall k :: 0 < k < |ls| && |ls[k]| > 0 ==> !IsWhitespace(ls[k][0])) &&
    (forall k :: 0 < k < |ls| - 1 ==> |ls[k]| > 0)
  }

  /** The first cut: at the first line feed `n`, up to the end `m` of the
      whitespace run that starts there. */
  lemma SplitCut(t: string, n: nat, m: nat)
    requires n < |t| && t[n] == '\n' && forall q :: 0 <= q < n ==> t[q] != '\n'
    requires n < m <= |t| && forall q :: n < q < m ==> IsWhitespace(t[q])
    requires m < |t| ==> !IsWhitespace(t[m])
    ensures SplitLines(t) == [t[..n]] + SplitLines(t[m..])
  {
    assert IndexOfChar(t, '\n') == n;
    assert SkipBlank(t, n) == m;
  }

  /** Where the parts of `head + "\n" + w + tail` sit. */
  lemma ThreeParts(head: string, w: string, tail: string)
    ensures var t, n := head + "\n" + w + tail, |head|;
      t[..n] == head && t[n] == '\n' && t[n + 1 + |w|..] == tail &&
      (forall q :: 0 <= q < n ==> t[q] == head[q]) &&
      (forall q :: n < q < n + 1 + |w| ==> t[q] == w[q - n - 1])
  {
  }

  /** A line feed and the blanks after it are one separator: the next line
      starts at the first non-blank, so blank lines and indentation vanish. */
  lemma SplitAtBlankRun(head: string, w: string, tail: string)
    requires NoNewline(head) && forall q :: 0 <= q < |w| ==> IsWhitespace(w[q])
    requires |tail| > 0 && !IsWhitespace(tail[0])
    ensures SplitLines(head + "\n" + w + tail) == [head] + SplitLines(tail)
  {
    var t := head + "\n" + w + tail;
    ThreeParts(head, w, tail);
    assert t[|head| + 1 + |w|] == tail[0];
    SplitCut(t, |head|, |head| + 1 + |w|);
  }

  /** Blanks after the last line feed leave one empty last piece. */
  lemma SplitAtTrailingBlanks(head: string, w: string)
    requires NoNewline(head) && forall q :: 0 <= q < |w| ==> IsWhitespace(w[q])
    ensures SplitLines(head + "\n" + w) == [head, ""]
  {
    var t := head + "\n" + w;
    assert t == head + "\n" + w + "";
    ThreeParts(head, w, "");
    SplitCut(t, |head|, |t|);
    assert SplitLines("") == [""];
  }

  /** Splitting undoes joining. */
  lemma {:induction false} SplitJoin(ls: seq<string>)
    requires Splittable(ls)
    ensures SplitLines(Join(ls)) == ls
    decreases |ls|
  {
    if |ls| == 2 && |ls[1]| == 0 {
      assert Join(ls[1..]) == "";
      SplitAtTrailingBlanks(ls[0], "");
      assert ls[0] + "\n" + "" == Join(ls);
      assert ls == [ls[0], ""];
    } else if |ls| > 1 {
      assert |ls[1]| > 0;
      assert Splittable(ls[1..]);
      JoinStartsWith(ls[1..]);
      assert Join(ls[1..])[0] == ls[1][0];
      assert ls[0] + "\n" + Join(ls[1..]) == ls[0] + "\n" + "" + Join(ls[1..]);
      SplitAtBlankRun(ls[0], "", Join(ls[1..]));
      SplitJoin(ls[1..]);
      assert ls == [ls[0]] + ls[1..];
    }
  }
}

=== FILE: pystr.dfy ===
/**
  The few Python `str` primitives the parser relies on: `startswith`,
  `find`, slicing with Python's index rules, and the `\s` character class.
*/
module PyStr {

  /** The `\s` class of a byte-string pattern: space, \t, \n, \r, \v, \f. */
  predicate IsWhitespace(c: char) {
    c == ' ' || c == '\t' || c == '\n' || c == '\r' || c == '\U{000B}' || c == '\U{000C}'
  }

  /** No character of `s` is a line feed. */
  predicate NoNewline(s: string) {
    forall q :: 0 <= q < |s| ==> s[q] != '\n'
  }

  /** `s.startswith(p)` */
  predicate StartsWith(s: string, p: string) {
    |p| <= |s| && s[..|p|] == p
  }

  /** `p` occurs in `t` at index `i`. */
  predicate IsAt(t: string, p: string, i: nat) {
    i + |p| <= |t| && t[i..i + |p|] == p
  }

  /** An occurrence begins with the first character of the pattern. */
  lemma IsAtHead(t: string, p: string, i: nat)
    ensures IsAt(t, p, i) && |p| > 0 ==> t[i] == p[0]
  {
    if IsAt(t, p, i) && |p| > 0 {
      assert t[i..i + |p|][0] == t[i];
    }
  }

  /** `t.find(p, from)`: the least index `i >= from` where `p` occurs, or -1. */
  function Find(t: string, p: string, from: nat): (r: int)
    ensures r == -1 || (from <= r && IsAt(t, p, r))
    ensures r != -1 ==> forall i :: from <= i < r ==> !IsAt(t, p, i)
    ensures r == -1 ==> forall i :: from <= i ==> !IsAt(t, p, i)
    decreases |t| - from
  {
    if from + |p| > |t| then -1
    else if IsAt(t, p, from) then from
    else Find(t, p, from + 1)
  }

  /** Every index at or after `from` where `p` occurs, in increasing order. */
  function Occurrences(t: string, p: string, from: nat): (r: seq<nat>)
    ensures forall k :: 0 <= k < |r| ==> from <= r[k] && IsAt(t, p, r[k])
    decreases |t| - from
  {
    if from + |p| > |t| then []
    else if IsAt(t, p, from) then [from] + Occurrences(t, p, from + 1)
    else Occurrences(t, p, from + 1)
  }

  /** `Occurrences` misses no occurrence. */
  lemma {:induction false} OccurrencesComplete(t: string, p: string, from: nat)
    ensures forall i :: from <= i && IsAt(t, p, i) ==> i in Occurrences(t, p, from)
    decreases |t| - from
  {
    if from + |p| <= |t| {
      OccurrencesComplete(t, p, from + 1);
      var rest := Occurrences(t, p, from + 1);
      assert forall i :: i in rest ==> i in Occurrences(t, p, from);
    }
  }

  /** `Occurrences` lists each occurrence once, in increasing order. */
  lemma {:induction false} OccurrencesIncreasing(t: string, p: string, from: nat)
    ensures forall j, k :: 0 <= j < k < |Occurrences(t, p, from)| ==>
      Occurrences(t, p, from)[j] < Occurrences(t, p, from)[k]
    decreases |t| - from
  {
    if from + |p| <= |t| {
      OccurrencesIncreasing(t, p, from + 1);
      var rest := Occurrences(t, p, from + 1);
      if IsAt(t, p, from) {
        var r := [from] + rest;
        forall j, k | 0 <= j < k < |r|
          ensures r[j] < r[k]
        {
          if j > 0 {
            assert r[j] == rest[j - 1] && r[k] == rest[k - 1];
          } else {
            assert r[k] == rest[k - 1];
          }
        }
      }
    }
  }

  /** Python's normalisation of one slice bound against a length `n`. */
  function SliceBound(i: int, n: nat): (r: nat)
    ensures r <= n
  {
    if i < 0 then (if i + n < 0 then 0 else i + n)
    else if i > n then n
    else i
  }

  /** `s[start:stop]` with Python's rules for negative and oversized bounds. */
  function PySlice(s: string, start: int, stop: int): (r: string)
    ensures 0 <= start <= stop <= |s| ==> r == s[start..stop]
    ensures stop == -1 && 0 <= start < |s| ==> r == s[start..|s| - 1]
    ensures |r| <= |s|
  {
    var lo := SliceBound(start, |s|);
    var hi := SliceBound(stop, |s|);
    if lo < hi then s[lo..hi] else []
  }

  /** `Find` reports exactly the first of the `Occurrences`. */
  lemma {:induction false} FindIsFirstOccurrence(t: string, p: string, from: nat)
    ensures Find(t, p, from) == if Occurrences(t, p, from) == [] then -1 else Occurrences(t, p, from)[0]
    decreases |t| - from
  {
    if from + |p| <= |t| && !IsAt(t, p, from) {
      FindIsFirstOccurrence(t, p, from + 1);
    }
  }

  /** With no occurrence in `[from, to)`, scanning from either end gives the same list. */
  lemma {:induction false} OccurrencesSkip(t: string, p: string, from: nat, to: nat)
    requires from <= to
    requires forall i :: from <= i < to ==> !IsAt(t, p, i)
    ensures Occurrences(t, p, from) == Occurrences(t, p, to)
    decreases (to as int) - (from as int)
  {
    if from < to {
      if from + |p| > |t| {
        assert Occurrences(t, p, to) == [];
      } else {
        OccurrencesSkip(t, p, from + 1, to);
      }
    }
  }

  /** When `p` cannot overlap the occurrence `Find` reports at `s`, the
      occurrences from `from` are `s` followed by those after that occurrence. */
  lemma OccurrencesAfterFind(t: string, p: string, from: nat, s: nat)
    requires s == Find(t, p, from) && |p| > 0
    requires forall q :: s < q < s + |p| ==> !IsAt(t, p, q)
    ensures Occurrences(t, p, from) == [s] + Occurrences(t, p, s + |p|)
  {
    assert IsAt(t, p, s) && s + |p| <= |t|;
    OccurrencesSkip(t, p, from, s);
    assert Occurrences(t, p, s) == [s] + Occurrences(t, p, s + 1);
    OccurrencesSkip(t, p, s + 1, s + |p|);
  }

  /** An occurrence of `p` inside `t[lo..hi]` is one in `t`. */
  lemma OccurrenceInSlice(t: string, p: string, lo: nat, hi: nat, i: nat)
    requires lo <= hi <= |t|
    ensures IsAt(t[lo..hi], p, i) ==> IsAt(t, p, lo + i) && lo + i + |p| <= hi
  {
    if IsAt(t[lo..hi], p, i) {
      var u := t[lo..hi];
      assert forall q :: 0 <= q < |p| ==> t[lo + i + q] == u[i + q] == p[q];
      assert t[lo + i..lo + i + |p|] == p;
    }
  }
}

=== FILE: records.dfy ===
/**
  The values the parser produces: the `ObjectInfo` record of one actor, the
  float triples stored in it, and the one error the parser can raise.
*/
module Records {
  import opened Wrappers

  /** A tuple of three floats, as `_getFloatTuple` returns it. */
  datatype Triple = Triple(x: real, y: real, z: real)

  /** One actor. `position`, `rotation` and `scale` are `None` until the
      actor's text assigns them: the record's own defaults are not part of
      this model. `attrs` holds the `"textblock"` entry. */
  datatype ObjectInfo = ObjectInfo(
    name: string,
    typeInternal: string,
    typeCommon: string,
    position: Option<Triple>,
    rotation: Option<Triple>,
    scale: Option<Triple>,
    attrs: map<string, string>)

  /** `_getFloatTuple` was given a line its pattern does not match; Python
      raises `AttributeError` there. */
  datatype ParseError = TupleMismatch(line: string)

  /** The key under which the unparsed lines are stored. */
  const TEXTBLOCK: string := "textblock"
}

=== FILE: triplet.dfy ===
/**
  `_getFloatTuple` and its pattern `float3Match`, and
  `_convertRotationFromUDK` (udk/udkParser.py:148-169).
*/
module Triplet {
  import opened Wrappers
  import opened PyStr
  import opened LazyMatch
  import opened Records

  /** `=\(.+?=(.+?),.+?=(.+?),.+?=(.+?)\)` */
  const FLOAT3: seq<Elem> := [
    Lit('='), Lit('('),
    AnyRun, Lit('='), AnyRun, Lit(','),     // 2..5: group 1 is element 4
    AnyRun, Lit('='), AnyRun, Lit(','),     // 6..9: group 2 is element 8
    AnyRun, Lit('='), AnyRun, Lit(')')      // 10..13: group 3 is element 12
  ]

  /** `g.group(i + 1)` for a match `m` of `FLOAT3`. */
  function Capture(text: string, m: Match, i: nat): string
    requires IsMatch(text, FLOAT3, m) && i < 3
  {
    Group(text, FLOAT3, m, 4 * i + 4)
  }

  /** `float(s)`, or the `0.0` the slot keeps when `float` raises `ValueError`. */
  function NumOrZero(parse: string -> Option<real>, s: string): real {
    if parse(s).Some? then parse(s).value else 0.0
  }

  /** What `_getFloatTuple(text)` returns, or the error it raises when the
      pattern does not match. `parse` stands for Python's `float`. */
  function FloatTupleSpec(text: string, parse: string -> Option<real>): (r: Result<Triple, ParseError>)
    ensures r.Err? ==> r.error == TupleMismatch(text)
  {
    match Search(text, FLOAT3)
    case None => Err(TupleMismatch(text))
    case Some(m) =>
      Ok(Triple(NumOrZero(parse, Capture(text, m, 0)),
                NumOrZero(parse, Capture(text, m, 1)),
                NumOrZero(parse, Capture(text, m, 2))))
  }

  /** The reader raises exactly when the pattern matches nowhere in the line. */
  lemma MismatchIffNoMatch(text: string, parse: string -> Option<real>)
    ensures FloatTupleSpec(text, parse).Err? <==> forall m :: !IsMatch(text, FLOAT3, m)
  {
    SearchLeast(text, FLOAT3);
  }

  /** `_getFloatTuple`: the list `[0.0, 0.0, 0.0]` filled slot by slot. */
  method GetFloatTuple(text: string, parse: string -> Option<real>) returns (r: Result<Triple, ParseError>)
    ensures r == FloatTupleSpec(text, parse)
  {
    var g := Search(text, FLOAT3);
    var a := new real[3];
    a[0], a[1], a[2] := 0.0, 0.0, 0.0;
    for i := 0 to 3
      invariant 0 < i ==> g.Some?
      invariant forall j :: 0 <= j < i ==> a[j] == NumOrZero(parse, Capture(text, g.value, j))
      invariant forall j :: i <= j < 3 ==> a[j] == 0.0
    {
      if g.None? {
        // `g.group` on `None`
        return Err(TupleMismatch(text));
      }
      var v := parse(Capture(text, g.value, i));
      if v.Some? {
        a[i] := v.value;
      }
    }
    return Ok(Triple(a[0], a[1], a[2]));
  }

  /** One component `name=val` followed by `sep`. */
  function Axis(name: string, val: string, sep: char): string {
    name + "=" + val + [sep]
  }

  /** A component that the pattern reads as written: a non-empty name without
      `=`, a non-empty value without `sep`, neither containing a line feed. */
  predicate PlainAxis(name: string, val: string, sep: char) {
    |name| > 0 && |val| > 0 && NoNewline(name) && NoNewline(val) &&
    (forall q :: 0 <= q < |name| ==> name[q] != '=') &&
    (forall q :: 0 <= q < |val| ==> val[q] != sep)
  }

  /** The element ends of one component matched from `pos`. */
  function AxisEnds(pos: nat, name: string, val: string): seq<nat> {
    var a := pos + |name|;
    [a, a + 1, a + 1 + |val|, a + 2 + |val|]
  }

  lemma AxisMatch(t: string, p: seq<Elem>, k: nat, pos: nat, name: string, val: string, sep: char, r: seq<nat>)
    requires k + 4 <= |p| && p[k] == AnyRun && p[k + 1] == Lit('=') && p[k + 2] == AnyRun && p[k + 3] == Lit(sep)
    requires |name| > 0 && |val| > 0 && NoNewline(name) && NoNewline(val)
    requires IsAt(t, Axis(name, val, sep), pos)
    requires MatchesAt(t, p, k + 4, pos + |Axis(name, val, sep)|, r)
    ensures MatchesAt(t, p, k, pos, AxisEnds(pos, name, val) + r)
  {
    var w := Axis(name, val, sep);
    var a := pos + |name|;
    var b := a + 1;
    var c := b + |val|;
    var d := c + 1;
    assert t[pos..pos + |w|] == w;
    assert t[c] == w[c - pos];
    MatchesAtConsRight(t, p, k + 3, c, d, r);
    forall q | b <= q < c ensures t[q] != '\n' {
      assert t[q] == w[q - pos] == val[q - b];
    }
    MatchesAtConsRight(t, p, k + 2, b, c, [d] + r);
    assert t[a] == w[a - pos];
    MatchesAtConsRight(t, p, k + 1, a, b, [c] + ([d] + r));
    forall q | pos <= q < a ensures t[q] != '\n' {
      assert t[q] == w[q - pos] == name[q - pos];
    }
    MatchesAtConsRight(t, p, k, pos, a, [b] + ([c] + ([d] + r)));
    assert [a] + ([b] + ([c] + ([d] + r))) == AxisEnds(pos, name, val) + r;
  }

  /** What an occurrence of a component at `pos` puts where. */
  lemma AxisChars(t: string, pos: nat, name: string, val: string, sep: char)
    requires PlainAxis(name, val, sep) && IsAt(t, Axis(name, val, sep), pos)
    ensures forall q :: pos <= q < pos + |name| ==> t[q] != '='
    ensures forall q :: pos + |name| + 1 <= q < pos + |name| + 1 + |val| ==> t[q] != sep
    ensures t[pos + |name| + 1..pos + |name| + 1 + |val|] == val
  {
    var w := Axis(name, val, sep);
    var b := pos + |name| + 1;
    assert t[pos..pos + |w|] == w;
    forall q | pos <= q < pos + |name| ensures t[q] != '=' {
      assert t[q] == w[q - pos] == name[q - pos];
    }
    forall q | b <= q < b + |val| ensures t[q] == val[q - b] && t[q] != sep {
      assert t[q] == w[q - pos] == val[q - b];
    }
    assert t[b..b + |val|] == val;
  }

  /** The assignment line `key=(X=v0,Y=v1,Z=v2)rest`. */
  function TupleLine(key: string, names: seq<string>, vals: seq<string>, rest: string): string
    requires |names| == 3 && |vals| == 3
  {
    key + "=(" + Axis(names[0], vals[0], ',') + Axis(names[1], vals[1], ',') + Axis(names[2], vals[2], ')') + rest
  }

  /** The element ends of the match of `TupleLine` that starts after `key`. */
  function TupleEnds(s: nat, names: seq<string>, vals: seq<string>): seq<nat>
    requires |names| == 3 && |vals| == 3
  {
    var p0 := s + 2;
    var p1 := p0 + |Axis(names[0], vals[0], ',')|;
    var p2 := p1 + |Axis(names[1], vals[1], ',')|;
    [s + 1, s + 2] + AxisEnds(p0, names[0], vals[0]) + AxisEnds(p1, names[1], vals[1]) + AxisEnds(p2, names[2], vals[2])
  }

  /** Where the pieces of `TupleLine` sit. */
  lemma TupleLinePieces(key: string, names: seq<string>, vals: seq<string>, rest: string)
    requires |names| == 3 && |vals| == 3
    ensures var t := TupleLine(key, names, vals, rest);
      var s := |key|;
      var p1 := s + 2 + |Axis(names[0], vals[0], ',')|;
      var p2 := p1 + |Axis(names[1], vals[1], ',')|;
      t[..s] == key && t[s] == '=' && t[s + 1] == '(' &&
      IsAt(t, Axis(names[0], vals[0], ','), s + 2) &&
      IsAt(t, Axis(names[1], vals[1], ','), p1) &&
      IsAt(t, Axis(names[2], vals[2], ')'), p2)
  {
    var w0, w1, w2 := Axis(names[0], vals[0], ','), Axis(names[1], vals[1], ','), Axis(names[2], vals[2], ')');
    var t := TupleLine(key, names, vals, rest);
    var s := |key|;
    var p0 := s + 2;
    var p1 := p0 + |w0|;
    var p2 := p1 + |w1|;
    assert t == key + "=(" + w0 + w1 + w2 + rest;
    assert t[..s] == key;
    assert t[s..p0] == "=(";
    assert t[s] == t[s..p0][0] && t[s + 1] == t[s..p0][1];
    assert t[p0..p1] == w0;
    assert t[p1..p2] == w1;
    assert t[p2..p2 + |w2|] == w2;
  }

  /** The elements of `FLOAT3`, one by one. */
  predicate Float3Shape(p: seq<Elem>) {
    |p| == 14 && p[0] == Lit('=') && p[1] == Lit('(') &&
    p[2] == AnyRun && p[3] == Lit('=') && p[4] == AnyRun && p[5] == Lit(',') &&
    p[6] == AnyRun && p[7] == Lit('=') && p[8] == AnyRun && p[9] == Lit(',') &&
    p[10] == AnyRun && p[11] == Lit('=') && p[12] == AnyRun && p[13] == Lit(')')
  }

  lemma Float3HasShape()
    ensures Float3Shape(FLOAT3)
  {
  }

  /** Each element end of `TupleEnds`, written out. */
  lemma TupleEndsValues(s: nat, names: seq<string>, vals: seq<string>)
    requires |names| == 3 && |vals| == 3
    ensures var e := TupleEnds(s, names, vals);
      var p0 := s + 2;
      var p1 := p0 + |Axis(names[0], vals[0], ',')|;
      var p2 := p1 + |Axis(names[1], vals[1], ',')|;
      |e| == 14 && e[0] == s + 1 && e[1] == p0 &&
      e[2] == p0 + |names[0]| && e[3] == e[2] + 1 && e[4] == e[3] + |vals[0]| && e[5] == p1 &&
      e[6] == p1 + |names[1]| && e[7] == e[6] + 1 && e[8] == e[7] + |vals[1]| && e[9] == p2 &&
      e[10] == p2 + |names[2]| && e[11] == e[10] + 1 && e[12] == e[11] + |vals[2]| && e[13] == e[12] + 1
  {
  }

  /** The three components in a row from `p0` match elements 2 to 13. */
  lemma AxesMatch(t: string, p: seq<Elem>, p0: nat, names: seq<string>, vals: seq<string>)
    requires Float3Shape(p)
    requires |names| == 3 && |vals| == 3
    requires PlainAxis(names[0], vals[0], ',') && PlainAxis(names[1], vals[1], ',') && PlainAxis(names[2], vals[2], ')')
    requires var p1 := p0 + |Axis(names[0], vals[0], ',')|;
      var p2 := p1 + |Axis(names[1], vals[1], ',')|;
      IsAt(t, Axis(names[0], vals[0], ','), p0) && IsAt(t, Axis(names[1], vals[1], ','), p1) &&
      IsAt(t, Axis(names[2], vals[2], ')'), p2)
    ensures var p1 := p0 + |Axis(names[0], vals[0], ',')|;
      var p2 := p1 + |Axis(names[1], vals[1], ',')|;
      MatchesAt(t, p, 2, p0, AxisEnds(p0, names[0], vals[0]) + (AxisEnds(p1, names[1], vals[1]) + AxisEnds(p2, names[2], vals[2])))
  {
    var p1 := p0 + |Axis(names[0], vals[0], ',')|;
    LastAxesMatch(t, p, p1, names, vals);
    var p2 := p1 + |Axis(names[1], vals[1], ',')|;
    var e := AxisEnds(p1, names[1], vals[1]) + AxisEnds(p2, names[2], vals[2]);
    AxisMatch(t, p, 2, p0, names[0], vals[0], ',', e);
  }

  /** The last two components in a row from `p1` match elements 6 to 13. */
  lemma LastAxesMatch(t: string, p: seq<Elem>, p1: nat, names: seq<string>, vals: seq<string>)
    requires Float3Shape(p)
    requires |names| == 3 && |vals| == 3
    requires PlainAxis(names[1], vals[1], ',') && PlainAxis(names[2], vals[2], ')')
    requires var p2 := p1 + |Axis(names[1], vals[1], ',')|;
      IsAt(t, Axis(names[1], vals[1], ','), p1) && IsAt(t, Axis(names[2], vals[2], ')'), p2)
    ensures var p2 := p1 + |Axis(names[1], vals[1], ',')|;
      MatchesAt(t, p, 6, p1, AxisEnds(p1, names[1], vals[1]) + AxisEnds(p2, names[2], vals[2]))
  {
    var p2 := p1 + |Axis(names[1], vals[1], ',')|;
    AxisMatch(t, p, 10, p2, names[2], vals[2], ')', []);
    var e2 := AxisEnds(p2, names[2], vals[2]);
    assert e2 + [] == e2;
    AxisMatch(t, p, 6, p1, names[1], vals[1], ',', e2);
  }

  /** The match of `TupleLine` after `key`, for any pattern shaped like `FLOAT3`. */
  lemma TupleLineIsMatch(p: seq<Elem>, key: string, names: seq<string>, vals: seq<string>, rest: string)
    requires Float3Shape(p)
    requires |names| == 3 && |vals| == 3
    requires PlainAxis(names[0], vals[0], ',') && PlainAxis(names[1], vals[1], ',') && PlainAxis(names[2], vals[2], ')')
    ensures IsMatch(TupleLine(key, names, vals, rest), p, Match(|key|, TupleEnds(|key|, names, vals)))
  {
    var t := TupleLine(key, names, vals, rest);
    TupleLinePieces(key, names, vals, rest);
    PiecesMatch(t, p, |key|, names, vals);
  }

  /** `=(` at `s` and the three components after it match the whole pattern. */
  lemma PiecesMatch(t: string, p: seq<Elem>, s: nat, names: seq<string>, vals: seq<string>)
    requires Float3Shape(p)
    requires |names| == 3 && |vals| == 3
    requires PlainAxis(names[0], vals[0], ',') && PlainAxis(names[1], vals[1], ',') && PlainAxis(names[2], vals[2], ')')
    requires var p1 := s + 2 + |Axis(names[0], vals[0], ',')|;
      var p2 := p1 + |Axis(names[1], vals[1], ',')|;
      s + 1 < |t| && t[s] == '=' && t[s + 1] == '(' &&
      IsAt(t, Axis(names[0], vals[0], ','), s + 2) && IsAt(t, Axis(names[1], vals[1], ','), p1) &&
      IsAt(t, Axis(names[2], vals[2], ')'), p2)
    ensures IsMatch(t, p, Match(s, TupleEnds(s, names, vals)))
  {
    var p0 := s + 2;
    var p1 := p0 + |Axis(names[0], vals[0], ',')|;
    var p2 := p1 + |Axis(names[1], vals[1], ',')|;
    AxesMatch(t, p, p0, names, vals);
    var r := AxisEnds(p0, names[0], vals[0]) + (AxisEnds(p1, names[1], vals[1]) + AxisEnds(p2, names[2], vals[2]));
    MatchesAtConsRight(t, p, 1, s + 1, s + 2, r);
    MatchesAtConsRight(t, p, 0, s, s + 1, [s + 2] + r);
    assert [s + 1] + ([s + 2] + r) == TupleEnds(s, names, vals);
  }

  /** `TupleLineMatch` for any pattern shaped like `FLOAT3`. */
  lemma TupleLineMatchWith(p: seq<Elem>, key: string, names: seq<string>, vals: seq<string>, rest: string)
    requires Float3Shape(p)
    requires |names| == 3 && |vals| == 3
    requires PlainAxis(names[0], vals[0], ',') && PlainAxis(names[1], vals[1], ',') && PlainAxis(names[2], vals[2], ')')
    ensures var t := TupleLine(key, names, vals, rest);
      Tight(t, p, Match(|key|, TupleEnds(|key|, names, vals)))
  {
    var t := TupleLine(key, names, vals, rest);
    var s := |key|;
    var p1 := s + 2 + |Axis(names[0], vals[0], ',')|;
    var p2 := p1 + |Axis(names[1], vals[1], ',')|;
    TupleLineIsMatch(p, key, names, vals, rest);
    TupleLinePieces(key, names, vals, rest);
    AxisChars(t, s + 2, names[0], vals[0], ',');
    AxisChars(t, p1, names[1], vals[1], ',');
    AxisChars(t, p2, names[2], vals[2], ')');
    var e := TupleEnds(s, names, vals);
    TupleEndsValues(s, names, vals);
    forall k | 0 <= k < |p| && p[k] == AnyRun
      ensures k + 1 < |p| && p[k + 1].Lit? && forall q :: PrevEnd(s, e, k) <= q < e[k] ==> t[q] != p[k + 1].c
    {
      assert k == 2 || k == 4 || k == 6 || k == 8 || k == 10 || k == 12;
    }
  }

  /** The line matches the pattern right after `key`, and that match is tight. */
  lemma TupleLineMatch(key: string, names: seq<string>, vals: seq<string>, rest: string)
    requires |names| == 3 && |vals| == 3
    requires PlainAxis(names[0], vals[0], ',') && PlainAxis(names[1], vals[1], ',') && PlainAxis(names[2], vals[2], ')')
    ensures var t := TupleLine(key, names, vals, rest);
      Tight(t, FLOAT3, Match(|key|, TupleEnds(|key|, names, vals)))
  {
    Float3HasShape();
    TupleLineMatchWith(FLOAT3, key, names, vals, rest);
  }

  /** A tight match that no match starts before is what the search finds. */
  lemma SearchFindsTight(t: string, p: seq<Elem>, c: Match)
    requires Tight(t, p, c)
    requires forall m :: IsMatch(t, p, m) ==> c.start <= m.start
    ensures Search(t, p) == Some(c)
  {
    SearchLeast(t, p);
    var m := Search(t, p).value;
    TightIsLeast(t, p, m, c);
  }

  /** No match of a pattern that begins with `=` starts inside a key without `=`. */
  lemma NoMatchInKey(t: string, p: seq<Elem>, s: nat)
    requires |p| > 0 && p[0] == Lit('=')
    requires s <= |t| && forall q :: 0 <= q < s ==> t[q] != '='
    ensures forall m :: IsMatch(t, p, m) ==> s <= m.start
  {
    forall m | IsMatch(t, p, m) ensures s <= m.start {
      ElemOfMatch(t, p, m, 0);
    }
  }

  /** The three groups of the match after `key` are the three values. */
  lemma TupleLineGroups(p: seq<Elem>, key: string, names: seq<string>, vals: seq<string>, rest: string)
    requires Float3Shape(p)
    requires |names| == 3 && |vals| == 3
    requires PlainAxis(names[0], vals[0], ',') && PlainAxis(names[1], vals[1], ',') && PlainAxis(names[2], vals[2], ')')
    requires IsMatch(TupleLine(key, names, vals, rest), p, Match(|key|, TupleEnds(|key|, names, vals)))
    ensures var t, c := TupleLine(key, names, vals, rest), Match(|key|, TupleEnds(|key|, names, vals));
      Group(t, p, c, 4) == vals[0] && Group(t, p, c, 8) == vals[1] && Group(t, p, c, 12) == vals[2]
  {
    var t := TupleLine(key, names, vals, rest);
    var s := |key|;
    var p1 := s + 2 + |Axis(names[0], vals[0], ',')|;
    var p2 := p1 + |Axis(names[1], vals[1], ',')|;
    TupleLinePieces(key, names, vals, rest);
    TupleEndsValues(s, names, vals);
    AxisChars(t, s + 2, names[0], vals[0], ',');
    AxisChars(t, p1, names[1], vals[1], ',');
    AxisChars(t, p2, names[2], vals[2], ')');
  }

  /** For a pattern shaped like `FLOAT3`, the search finds the match right
      after `key`, and its three groups are the three values. */
  lemma PlainLineSearch(p: seq<Elem>, key: string, names: seq<string>, vals: seq<string>, rest: string)
    requires Float3Shape(p)
    requires forall q :: 0 <= q < |key| ==> key[q] != '='
    requires |names| == 3 && |vals| == 3
    requires PlainAxis(names[0], vals[0], ',') && PlainAxis(names[1], vals[1], ',') && PlainAxis(names[2], vals[2], ')')
    ensures var t, c := TupleLine(key, names, vals, rest), Match(|key|, TupleEnds(|key|, names, vals));
      Search(t, p) == Some(c) && IsMatch(t, p, c) &&
      Group(t, p, c, 4) == vals[0] && Group(t, p, c, 8) == vals[1] && Group(t, p, c, 12) == vals[2]
  {
    var t := TupleLine(key, names, vals, rest);
    var c := Match(|key|, TupleEnds(|key|, names, vals));
    TupleLinePieces(key, names, vals, rest);
    TupleLineMatchWith(p, key, names, vals, rest);
    NoMatchInKey(t, p, |key|);
    SearchFindsTight(t, p, c);
    TupleLineGroups(p, key, names, vals, rest);
  }

  /** The usual assignment line: when the key has no `=`, no name contains
      `=`, the first two values contain no `,` and the last no `)`, the three
      values are what is parsed, in order. */
  lemma FloatTupleOfPlainLine(key: string, names: seq<string>, vals: seq<string>, rest: string,
                              parse: string -> Option<real>)
    requires forall q :: 0 <= q < |key| ==> key[q] != '='
    requires |names| == 3 && |vals| == 3
    requires PlainAxis(names[0], vals[0], ',') && PlainAxis(names[1], vals[1], ',') && PlainAxis(names[2], vals[2], ')')
    ensures FloatTupleSpec(TupleLine(key, names, vals, rest), parse)
         == Ok(Triple(NumOrZero(parse, vals[0]), NumOrZero(parse, vals[1]), NumOrZero(parse, vals[2])))
  {
    Float3HasShape();
    PlainLineSearch(FLOAT3, key, names, vals, rest);
  }

  /** `Location=(X=1.5,Y=-2.0,Z=0.0)` gives `(1.5, -2.0, 0.0)`. */
  lemma LocationExample(parse: string -> Option<real>)
    requires parse("1.5") == Some(1.5) && parse("-2.0") == Some(-2.0) && parse("0.0") == Some(0.0)
    ensures FloatTupleSpec("Location=(X=1.5,Y=-2.0,Z=0.0)", parse) == Ok(Triple(1.5, -2.0, 0.0))
  {
    var names, vals := ["X", "Y", "Z"], ["1.5", "-2.0", "0.0"];
    assert Axis("X", "1.5", ',') == "X=1.5,";
    assert Axis("Y", "-2.0", ',') == "Y=-2.0,";
    assert Axis("Z", "0.0", ')') == "Z=0.0)";
    assert TupleLine("Location", names, vals, "") == "Location=(X=1.5,Y=-2.0,Z=0.0)";
    FloatTupleOfPlainLine("Location", names, vals, "", parse);
  }

  /** A value `float` rejects leaves its slot at `0.0` and the others as parsed. */
  lemma RejectedValueExample(parse: string -> Option<real>)
    requires parse("abc") == None && parse("2.0") == Some(2.0) && parse("3.0") == Some(3.0)
    ensures FloatTupleSpec("Location=(X=abc,Y=2.0,Z=3.0)", parse) == Ok(Triple(0.0, 2.0, 3.0))
  {
    var names, vals := ["X", "Y", "Z"], ["abc", "2.0", "3.0"];
    assert Axis("X", "abc", ',') == "X=abc,";
    assert Axis("Y", "2.0", ',') == "Y=2.0,";
    assert Axis("Z", "3.0", ')') == "Z=3.0)";
    assert TupleLine("Location", names, vals, "") == "Location=(X=abc,Y=2.0,Z=3.0)";
    FloatTupleOfPlainLine("Location", names, vals, "", parse);
  }

  /** A line without `(` has no match: `_getFloatTuple` raises. */
  lemma NoParenthesisIsMismatch(text: string, parse: string -> Option<real>)
    requires forall q :: 0 <= q < |text| ==> text[q] != '('
    ensures FloatTupleSpec(text, parse) == Err(TupleMismatch(text))
  {
    forall m | IsMatch(text, FLOAT3, m) ensures false {
      ElemOfMatch(text, FLOAT3, m, 1);
    }
    MismatchIffNoMatch(text, parse);
  }

  /** 360 degrees over the 65536 units of a full turn. */
  const DEGREES_PER_UNIT: real := 0.0054931640625

  /** `_convertRotationFromUDK`: every component scaled from units of
      1/65536 turn to degrees, independently of the others. */
  function ConvertRotationFromUDK(rot: Triple): (r: Triple)
    ensures r.x * 65536.0 == rot.x * 360.0
    ensures r.y * 65536.0 == rot.y * 360.0
    ensures r.z * 65536.0 == rot.z * 360.0
  {
    Triple(rot.x * DEGREES_PER_UNIT, rot.y * DEGREES_PER_UNIT, rot.z * DEGREES_PER_UNIT)
  }

  /** A quarter, a half and a whole turn. */
  lemma RotationExample()
    ensures ConvertRotationFromUDK(Triple(16384.0, 32768.0, 65536.0)) == Triple(90.0, 180.0, 360.0)
  {
  }

  /** The conversion loses nothing: scaling back by 65536/360 restores the input. */
  lemma RotationRoundTrip(rot: Triple)
    ensures var r := ConvertRotationFromUDK(rot);
      Triple(r.x * 65536.0 / 360.0, r.y * 65536.0 / 360.0, r.z * 65536.0 / 360.0) == rot
  {
  }
}

=== FILE: wrappers.dfy ===
/** Option and Result, used for Python's `None` returns and raised exceptions. */
module Wrappers {

  datatype Option<+T> = None | Some(value: T)

  datatype Result<+R, +E> = Ok(value: R) | Err(error: E)
}
